=== FILE: README.md ===
# Physics diagram converter: history, serializer and editor operations

A Dafny model of the pure logic inside a browser application. The application
turns a photographed physics diagram into an editable SVG diagram and lets the
user edit it on a canvas. The model covers four parts:

- **History manager** (`hooks/usePhysicsDiagramConverter.ts`). This is the
  undo/redo history of component lists. `Set` is the single mutation entry
  point; `Undo` and `Redo` move along the history. Reset and a finished
  analysis replace the history wholesale. A component list is a `Snapshot`
  that carries an identity token `ref` next to its contents. The history's
  no-op test compares identities, like JavaScript `===` on arrays, and never
  compares contents.
- **SVG serializer** (`generateSvgFromComponents`). It builds an `<svg>` root
  sized by the viewBox. Each component other than a GROUP without markup
  adds one element, in list order. A GROUP component embeds its markup
  after its own `<svg>`/`</svg>` tags are removed. That removal follows the regular expression `/<svg.*?>|<\/svg>/g`
  exactly: `.` stops at line terminators, and the pass is a single
  left-to-right scan. Turning numbers into text is the parameter `fmt`.
- **Editor operations** (`components/InteractiveSvgEditor.tsx`). These are:
  mapping canvas type names to tags; merging an edited canvas object back
  into the list by id, which folds the scale into the size; deleting by id;
  appending; the drag geometry and the commit threshold of the shape tools;
  the pencil's path component; and text placement, which classifies input as
  plain text or a formula.
- **Converter state** (the rest of the hook). This covers file selection with
  its 4 MiB limit, reset, the two halves of a conversion, and the derived
  markup.

The data model of `types.ts` is in `types.dfy`. The JavaScript string
primitives the editor uses are in `jstext.dfy`: `trim`, `toLowerCase`, and
`length` counted in UTF-16 code units.

Behaviours of the code worth knowing, each proved about the model:

- A rectangle dragged from (10,10) to (12,11) is **kept**. The code discards a
  rectangle or ellipse only when both sides are under 2. Here the width is
  exactly 2. See `Drawing.RectangleDragExamples`.
- Starting from an empty history, n recorded edits can be undone only n−1
  times. The absent starting present is never pushed onto the past, so undo
  stops at the first edit's list. See `History.UndoAllFromEmpty`.
- A reset while an analysis is in flight does not discard the result. When the
  call completes, it installs the result anyway. See
  `Converter.ResultAfterResetStillApplied`.
- Not every component yields an element. A GROUP without embedded markup
  (absent or empty) emits nothing. See `SvgSerializer.BodyEmptyIffAllSilent`.
- A rectangle or ellipse read back from its canvas object keeps its drawn
  size, but any scale is folded into its width and height and written as 1.
  At unit scale the result is the component with both scales written as 1.
  That is the component itself only when its scales were already 1, not when
  they were absent, as they are for every analysed component. For text, path and
  group objects, the canvas library computes the size itself. See
  `CanvasSync.CanvasRoundTrip`.

## Model

| member | source | states |
|---|---|---|
| `Types.OrEmpty` | hooks/usePhysicsDiagramConverter.ts:39 | `x \|\| ''` yields the string when it is present and non-empty, else "" |
| `Types.OrOne` | hooks/usePhysicsDiagramConverter.ts:24 | `n \|\| 1` is never zero, and it is the number itself unless the number is absent or zero |
| `History.Empty` | hooks/usePhysicsDiagramConverter.ts:59-63 | the initial and reset history holds no snapshot and has no present |
| `History.Loaded` | hooks/usePhysicsDiagramConverter.ts:171 | a finished analysis leaves a history whose only snapshot is the present, with empty past and future |
| `History.Set` | hooks/usePhysicsDiagramConverter.ts:69-85 | the history is returned unchanged exactly when the new value is identical (by reference) to the present; otherwise the new value becomes the present, the future is emptied, the old present is appended to the past only when it exists, and the timeline gains the new value after the present |
| `History.Undo` | hooks/usePhysicsDiagramConverter.ts:87-101 | with an empty past nothing changes; otherwise the present becomes the last past snapshot, the past loses exactly that snapshot, and the old present (if any) heads the future; the timeline is unchanged |
| `History.CanUndo` | hooks/usePhysicsDiagramConverter.ts:66 | undo is offered exactly when some snapshot of the timeline lies before the present |
| `History.CanRedo` | hooks/usePhysicsDiagramConverter.ts:67 | redo is offered exactly when some snapshot of the timeline lies after the present |
| `History.Redo` | hooks/usePhysicsDiagramConverter.ts:103-117 | with an empty future nothing changes; otherwise the present becomes the first future snapshot, the future drops it, and the old present (if any) closes the past; the timeline is unchanged |
| `History.CanUndoExact` | hooks/usePhysicsDiagramConverter.ts:66-67 | canUndo (a non-empty past) holds exactly when undo would change the history; likewise canRedo and redo |
| `History.UndoThenRedo` | hooks/usePhysicsDiagramConverter.ts:87-117 | with a present and a non-empty past, redo after undo restores the exact history, and the sizes of past plus future stay the same |
| `History.RedoThenUndo` | hooks/usePhysicsDiagramConverter.ts:87-117 | with a present and a non-empty future, undo after redo restores the exact history, and the sizes of past plus future stay the same |
| `History.NavigationKeepsPresent` | hooks/usePhysicsDiagramConverter.ts:92-114 | once a present exists, undo and redo never make it absent |
| `History.UndoTimesMovesCursor` | hooks/usePhysicsDiagramConverter.ts:87-101 | k undos (k at most the past's length) keep the timeline, shrink the past by exactly k, and leave a present |
| `History.RedoTimesMovesCursor` | hooks/usePhysicsDiagramConverter.ts:103-117 | k redos (k at most the future's length) keep the timeline and grow the past by exactly k |
| `History.UndoRedoTimesRoundTrip` | hooks/usePhysicsDiagramConverter.ts:87-117 | any number of undos followed by as many redos restores the history |
| `History.SetAllRecords` | hooks/usePhysicsDiagramConverter.ts:69-85 | a run of replacements, each not identical to the previous one, pushes the starting present and every value but the last into the past, in order, and leaves the last as present with an empty future |
| `History.UndoAllFromPresent` | hooks/usePhysicsDiagramConverter.ts:69-117 | from a history with a present, n edits can be undone exactly n times, landing on the original present and past with the n edits as the future; as many redos restore the final state |
| `History.UndoAllFromEmpty` | hooks/usePhysicsDiagramConverter.ts:59-117 | from the empty history, n edits can be undone n−1 times, landing on the first edit, with nothing further to undo; as many redos restore the final state |
| `History.EqualContentsStillRecorded` | hooks/usePhysicsDiagramConverter.ts:73-77 | a new list with exactly the present's components is still recorded, because the no-op test is by identity |
| `SvgSerializer.LazyTagEnd` | hooks/usePhysicsDiagramConverter.ts:25 | the lazy `.*?>` ends at the first `>` after the `<svg`, and matches only if no line terminator comes before that `>` |
| `SvgSerializer.LazyTagEndFinds` | hooks/usePhysicsDiagramConverter.ts:25 | when no `>` and no line terminator come before a `>`, the lazy `.*?>` ends exactly at that `>` |
| `SvgSerializer.OpenTagRemoved` | hooks/usePhysicsDiagramConverter.ts:25 | an opening `<svg …>` tag written on one line at the start of the markup is removed whole, and scanning resumes just after its `>` |
| `SvgSerializer.StripClosingTag` | hooks/usePhysicsDiagramConverter.ts:25 | a `</svg>` that ends the markup is removed |
| `SvgSerializer.StripFromShrinks` | hooks/usePhysicsDiagramConverter.ts:25 | removing the svg tags never lengthens the markup |
| `SvgSerializer.StripFromCopies` | hooks/usePhysicsDiagramConverter.ts:25 | a stretch in which no `<svg`/`</svg>` starts is copied to the output unchanged |
| `SvgSerializer.StripSvgTags` | hooks/usePhysicsDiagramConverter.ts:25 | the global `replace` of `/<svg.*?>\|<\/svg>/g` by "" never lengthens the markup, and markup in which no `<svg` and no `</svg>` starts is left as it is |
| `SvgSerializer.StripUnwrapsRoot` | hooks/usePhysicsDiagramConverter.ts:25 | a one-line `<svg …>` opening tag, a tag-free body and `</svg>` reduce to exactly the body |
| `SvgSerializer.MultiLineOpenTagKept` | hooks/usePhysicsDiagramConverter.ts:25 | an opening tag with a line break before its `>` is not removed |
| `SvgSerializer.StripIsSinglePass` | hooks/usePhysicsDiagramConverter.ts:25 | removal is one pass: a `</svg>` formed by a removal survives |
| `SvgSerializer.Element` | hooks/usePhysicsDiagramConverter.ts:21-45 | a component yields no markup exactly when it is a GROUP without embedded markup; otherwise it yields one element whose start names its tag (`<rect `, `<ellipse `, `<text `, `<path `, `<g `) |
| `SvgSerializer.GroupElementUnwrapsRoot` | hooks/usePhysicsDiagramConverter.ts:23-26 | a GROUP holding a whole embedded document is emitted as a `<g>` with its transform around that document's content, without the embedded root tags |
| `SvgSerializer.BodyConcat` | hooks/usePhysicsDiagramConverter.ts:21-45 | the elements of a concatenated list are the elements of the first part followed by those of the second |
| `SvgSerializer.ElementsInListOrder` | hooks/usePhysicsDiagramConverter.ts:21-45 | the i-th component's element comes after those of all earlier components and before those of all later ones |
| `SvgSerializer.BodyEmptyIffAllSilent` | hooks/usePhysicsDiagramConverter.ts:21-45 | the root has no children exactly when every component is a GROUP without embedded markup |
| `SvgSerializer.Serialize` | hooks/usePhysicsDiagramConverter.ts:47 | the document is the root's opening tag, then exactly the elements in list order, then `</svg>` |
| `SvgSerializer.SerializeShape` | hooks/usePhysicsDiagramConverter.ts:47 | the document starts with the `<svg width height viewBox="0 0 W H" xmlns>` tag and ends with `</svg>`; an empty list gives exactly those two tags |
| `SvgSerializer.AppendEach` | hooks/usePhysicsDiagramConverter.ts:19-45 | the `forEach` accumulator ends as the in-order concatenation of every item's string |
| `SvgSerializer.GenerateSvgFromComponents` | hooks/usePhysicsDiagramConverter.ts:15-48 | the loop-built markup equals the root tags around the in-order concatenation of the elements |
| `CanvasSync.FabricTypeToComponentType` | components/InteractiveSvgEditor.tsx:18-27 | after lower-casing, `ellipse`, `path`, `i-text` and `group` map to their tags, and only those names do; every other name, and an absent one, maps to RECT |
| `CanvasSync.FabricTypeCaseInsensitive` | components/InteractiveSvgEditor.tsx:19 | names that lower-case alike map to the same tag |
| `CanvasSync.FabricTypeRoundTrip` | components/InteractiveSvgEditor.tsx:18-27 | the canvas type name of each tag, in any letter case, maps back to that tag |
| `CanvasSync.UnknownFabricTypeIsRect` | components/InteractiveSvgEditor.tsx:25 | a name matching none of the five canvas type names maps to RECT |
| `CanvasSync.MergeInto` | components/InteractiveSvgEditor.tsx:71-88 | the merged component takes id, tag, position, angle and style from the canvas object, has both scales 1, takes text only for TEXT and path only for PATH (otherwise keeping its own), and keeps its embedded markup |
| `CanvasSync.MergeFoldsScale` | components/InteractiveSvgEditor.tsx:78-81 | the merged component is drawn at the canvas object's scaled size, and its width equals its drawn width |
| `CanvasSync.MergeIntoIdempotent` | components/InteractiveSvgEditor.tsx:72-88 | merging the same canvas object twice is the same as merging it once |
| `CanvasSync.MergeById` | components/InteractiveSvgEditor.tsx:69-92 | the list keeps its length and order; components with the object's id are replaced by the merge; all others are unchanged |
| `CanvasSync.SyncFromCanvas` | components/InteractiveSvgEditor.tsx:64-94 | an object without an id, or an absent list, leaves the history unchanged; otherwise the merged list becomes the present and the old present is recorded |
| `CanvasSync.UnmatchedSyncStillRecorded` | components/InteractiveSvgEditor.tsx:67-92 | an edit matching no component still records a history entry with the same components |
| `CanvasSync.CanvasObjectFor` | components/InteractiveSvgEditor.tsx:301-309 | the canvas object built for a rectangle or ellipse carries the component's id, its width and height are the component's size (an ellipse via radii of half the size), and its scales are the component's, 1 when absent or zero |
| `CanvasSync.CanvasRoundTrip` | components/InteractiveSvgEditor.tsx:72-88 | reading back the canvas object built for a rectangle or ellipse gives the component at its drawn size, with the scale folded into width and height and written as 1; at unit scale it gives the component with both scales written as 1, which is the component itself only when its scales were already 1 |
| `CanvasSync.DeleteById` | components/InteractiveSvgEditor.tsx:481 | no survivor has the target id; every component without it survives; nothing new appears |
| `CanvasSync.DeleteConcat` | components/InteractiveSvgEditor.tsx:481 | deletion commutes with concatenation, so survivors keep their relative order |
| `CanvasSync.DeleteAbsentKeepsAll` | components/InteractiveSvgEditor.tsx:481 | deleting an id no component has keeps the list as it is |
| `CanvasSync.DeleteIdempotent` | components/InteractiveSvgEditor.tsx:481 | deleting twice is deleting once |
| `CanvasSync.DeleteActive` | components/InteractiveSvgEditor.tsx:476-483 | an absent list leaves the history unchanged; otherwise the filtered list becomes the present and the old present is recorded |
| `CanvasSync.AppendComponent` | components/InteractiveSvgEditor.tsx:233 | the new component is last and everything before it is the previous list, an absent list counting as empty |
| `CanvasSync.UndoAfterAdd` | components/InteractiveSvgEditor.tsx:233 | after an add to an existing list, one undo brings back the list and past from before the add, with the added list as the only redo; redo adds it again |
| `CanvasSync.AddComponent` | components/InteractiveSvgEditor.tsx:233 | adding always records: the future empties, the old present (if any) is pushed, and the new present is the old list plus the new component |
| `Drawing.MouseDown` | components/InteractiveSvgEditor.tsx:119-157 | only the line, rectangle and ellipse tools start a preview, and it starts too small to keep |
| `Drawing.DragBox` | components/InteractiveSvgEditor.tsx:168-171 | the box's corner is the coordinate-wise minimum of the two points, its sides are non-negative, and its far corner is the coordinate-wise maximum |
| `Drawing.DragBoxSymmetric` | components/InteractiveSvgEditor.tsx:168-171 | the box does not depend on which point the drag started at |
| `Drawing.MouseMove` | components/InteractiveSvgEditor.tsx:159-185 | a line's second end follows the pointer; a rectangle or ellipse occupies exactly the drag box; the style is kept |
| `Drawing.Discarded` | components/InteractiveSvgEditor.tsx:197 | a line is dropped exactly when both its extents are under 2, a rectangle exactly when both sides are under 2, and an ellipse exactly when both radii are under 1 |
| `Drawing.MouseUp` | components/InteractiveSvgEditor.tsx:187-235 | no component exactly when the preview is under the threshold; otherwise rotation 0, scales 1, the tool's stroke, and an id of the tool's name, a dash and the stamp; a line becomes a transparent PATH covering its end points' box; a rectangle or ellipse covers its preview box |
| `Drawing.DragGesture` | components/InteractiveSvgEditor.tsx:159-229 | a full rectangle or ellipse drag is kept exactly when it moved at least 2 along some axis, and the component covers the drag box |
| `Drawing.LineGesture` | components/InteractiveSvgEditor.tsx:197-216 | a full line drag is kept exactly when it moved at least 2 along some axis, and its PATH covers the drag box |
| `Drawing.RectangleDragExamples` | components/InteractiveSvgEditor.tsx:197-223 | (10,10)→(50,80) gives a RECT at (10,10) of size 40×70; (10,10)→(12,11) is kept; (10,10)→(11,11) is discarded |
| `Drawing.PencilComponent` | components/InteractiveSvgEditor.tsx:237-256 | the pencil path becomes a transparent PATH with the captured data, position and size, the tool's stroke, rotation 0 and scales 1 |
| `JsText.Trim` | components/InteractiveSvgEditor.tsx:368 | the result is a slice of the input with only whitespace cut off either end, has no whitespace at its ends, and is empty exactly when the input is all whitespace |
| `JsText.TrimIdempotent` | components/InteractiveSvgEditor.tsx:368 | trimming twice is trimming once |
| `JsText.ToLower` | components/InteractiveSvgEditor.tsx:19 | lower-casing keeps the length, maps each character on its own, and leaves no ASCII capital |
| `JsText.ToLowerIdempotent` | components/InteractiveSvgEditor.tsx:19 | lower-casing twice is lower-casing once |
| `JsText.Utf16Length` | components/InteractiveSvgEditor.tsx:467 | `length` counts one code unit for a character in the Basic Multilingual Plane and two for any other; it lies between the number of characters and twice that |
| `JsText.Utf16LengthConcat` | components/InteractiveSvgEditor.tsx:467 | the code-unit count of a concatenation is the sum of the parts' counts, which with the one-character case fixes `length` on every string |
| `TextTool.PlainTextComponent` | components/InteractiveSvgEditor.tsx:465-470 | plain text becomes TEXT holding the text, 12 per UTF-16 unit wide and 24 high, at the click, in the tool's stroke colour with no outline |
| `TextTool.FormulaComponent` | components/InteractiveSvgEditor.tsx:450-456 | a rendered formula becomes a GROUP holding its markup, sized by its viewBox, at the click |
| `TextTool.IsLatex` | components/InteractiveSvgEditor.tsx:377 | text counts as a formula exactly when it holds a backslash, `^` or `_`, or begins and ends with `$`; so `$5` and `a$b` are plain |
| `TextTool.DollarAloneIsNotEnough` | components/InteractiveSvgEditor.tsx:377 | `$5` and `a$b` are plain text: a `$` counts only when it both starts and ends the text |
| `TextTool.PlaceText` | components/InteractiveSvgEditor.tsx:367-472 | nothing is placed exactly when the trimmed text is empty, there is no click point, or a formula failed to render; a formula (backslash, `^`, `_`, or `$…$`) becomes a GROUP and other text a TEXT |
| `TextTool.AddText` | components/InteractiveSvgEditor.tsx:457-471 | when nothing is placed the history is unchanged; otherwise the new present is the old list, unchanged, followed by the placed component; the old present is pushed, the future is cleared, and undo becomes available if there was a present before |
| `TextTool.PlacementIgnoresSurroundingWhitespace` | components/InteractiveSvgEditor.tsx:368 | text is placed the same as its trimmed form |
| `TextTool.ClassifierExamples` | components/InteractiveSvgEditor.tsx:377 | `x^2` and a lone `$` are formulas; `Force` is plain text and becomes a TEXT 60 wide |
| `Converter.Initial` | hooks/usePhysicsDiagramConverter.ts:52-63 | the hook starts idle with an empty history |
| `Converter.ResetState` | hooks/usePhysicsDiagramConverter.ts:137-147 | reset leaves the state idle with no file, preview or error, and a history with nothing to undo or redo; the viewBox is kept |
| `Converter.FileSelect` | hooks/usePhysicsDiagramConverter.ts:149-160 | the state is reset first; a file over 4 MiB sets the error state with the size message and no file or preview; a smaller file is selected and previewed |
| `Converter.FileSizeBoundary` | hooks/usePhysicsDiagramConverter.ts:152-156 | exactly 4 MiB is accepted; one byte more (and 5 MiB) is refused with a message containing "4MB" and no preview |
| `Converter.BeginConvert` | hooks/usePhysicsDiagramConverter.ts:162-167 | without a file nothing changes; otherwise the status becomes ANALYZING and the error and history are cleared, while the file, preview and viewBox are kept |
| `Converter.FinishConvert` | hooks/usePhysicsDiagramConverter.ts:169-178 | a response replaces the history wholesale with one holding only its components, adopts its viewBox and succeeds; a failure records its message (or the generic one) and keeps the history and viewBox; either way the selected file and preview are kept, and a success leaves the error as it was |
| `Converter.ConvertLeavesNoHistory` | hooks/usePhysicsDiagramConverter.ts:162-179 | after a conversion there is nothing to undo or redo, and a present exists exactly when it succeeded |
| `Converter.ResultAfterResetStillApplied` | hooks/usePhysicsDiagramConverter.ts:162-179 | a result arriving after a reset is still installed with status SUCCESS although no file is selected |
| `Converter.SvgContent` | hooks/usePhysicsDiagramConverter.ts:127-134 | markup exists exactly when there is a present, and it is the present serialized with the current viewBox |
| `Converter.UndoShowsPreviousSnapshot` | hooks/usePhysicsDiagramConverter.ts:87-134 | after an undo, the markup shown is that of the last past snapshot |

## Left out

- The canvas library and everything that drives it: canvas construction, `createFabricObject` (apart from the rectangle and ellipse options modelled by `CanvasSync.CanvasObjectFor`) and `renderCanvas`, restoring the selection, the `isDrawingMode` and selectability toggling, and keyboard and selection events. These are foreign library semantics. The per-object skip-and-continue of the asynchronous rendering is promise plumbing around them.
- `CanvasSync.CanvasObjectFor`: covers rectangles and ellipses only. For text, path and group objects the canvas library computes width and height from layout, so no round trip can be stated for them.
- `updateActiveObjectProperty` and `handleFlip`: they set a property on the live object and then take the same merge path as `SyncFromCanvas`. Only that merge path is modelled.
- Formula rendering and the DOM flattening of its markup (lines 380-448 of the editor). They depend on an external renderer and on DOM APIs, so the rendered `Formula` (markup, width, height) or its failure is a parameter of `TextTool.PlaceText`. The failure alert is not modelled.
- `services/geminiService.ts` (network calls, image encoding, response parsing), `App.tsx`, the presentational components and `vite.config.js`. They are remote calls or UI. The analysis outcome is a parameter of `Converter.FinishConvert`.
- The download (`handleDownload`, blob and object URL) and the preview object URL. These are I/O; a preview is the flag `hasPreview`.
- Time-stamped ids and array allocation. `Date.now()` is the `stamp` parameter. The identity of each newly allocated list is the `ref` parameter, required to differ from the present's identity, as a fresh JavaScript array always does.
- Floating-point arithmetic and JavaScript number formatting. Numbers are exact reals, and formatting is the `fmt` parameter.
- `JsText.ToLower`: lower-cases ASCII letters only. No other character lower-cases to text matching any of the five canvas type names, so the mapping's results are the same.
- The string values of the component-type enumeration (`"RECT"` and so on, types.ts lines 9-15). The core only compares tags with each other, never as strings, so the tags are a plain datatype.
- The `children` field of a component. It is declared but never written or read.
- `Drawing.MouseUp`: the tool at pointer-up is taken to be the one that started the preview, and the `!shape` guard is not modelled. A preview always exists while a drawing tool drags.
- `CanvasSync.DeleteActive`: the case with no active object, where nothing happens, is not modelled. The target id is that of the active object, absent when the object has none.
- The fill read from a canvas object is modelled as a string. Gradient and pattern fills are not modelled.

=== FILE: canvas_sync.dfy ===
/** The pure list transforms behind the interactive editor: mapping a canvas
    object's type to a component tag, merging an edited canvas object back
    into the component list by id, deleting by id, appending a new
    component, and routing each through the history's mutation entry point. */
module CanvasSync {
  import opened Wrappers
  import opened Types
  import opened JsText
  import opened History

  /** The type name of the canvas object the editor builds for each tag. */
  function FabricTypeName(t: ComponentType): string {
    match t
    case Rect => "rect"
    case Ellipse => "ellipse"
    case Path => "path"
    case Text => "i-text"
    case Group => "group"
  }

  /** `fabricTypeToComponentType`: the lower-cased type name selects the tag;
      an absent or unknown name falls back to RECT. */
  function FabricTypeToComponentType(fabricType: Option<string>): (t: ComponentType)
    ensures fabricType.None? ==> t == Rect
    ensures fabricType.Some? ==>
      var l := ToLower(fabricType.value);
      && (t == Ellipse <==> l == "ellipse")
      && (t == Path <==> l == "path")
      && (t == Text <==> l == "i-text")
      && (t == Group <==> l == "group")
  {
    match fabricType
    case None => Rect
    case Some(name) =>
      var l := ToLower(name);
      if l == "rect" then Rect
      else if l == "ellipse" then Ellipse
      else if l == "path" then Path
      else if l == "i-text" then Text
      else if l == "group" then Group
      else Rect
  }

  /** The mapping ignores letter case. */
  lemma FabricTypeCaseInsensitive(a: string, b: string)
    requires ToLower(a) == ToLower(b)
    ensures FabricTypeToComponentType(Some(a)) == FabricTypeToComponentType(Some(b))
  {
  }

  /** Every tag survives the trip to a canvas type name and back, whatever
      the case the name arrives in. */
  lemma FabricTypeRoundTrip(t: ComponentType, name: string)
    requires ToLower(name) == FabricTypeName(t)
    ensures FabricTypeToComponentType(Some(name)) == t
  {
  }

  /** Any name other than the five known ones (in any case) maps to RECT. */
  lemma UnknownFabricTypeIsRect(name: string)
    requires forall t: ComponentType :: ToLower(name) != FabricTypeName(t)
    ensures FabricTypeToComponentType(Some(name)) == Rect
  {
    assert ToLower(name) != FabricTypeName(Ellipse);
    assert ToLower(name) != FabricTypeName(Path);
    assert ToLower(name) != FabricTypeName(Text);
    assert ToLower(name) != FabricTypeName(Group);
  }

  /** The fields of a live canvas object that the editor reads back.
      `pathData` is the object's path commands already joined into text. */
  datatype CanvasObject = CanvasObject(
    id: Option<string>,
    fabricType: Option<string>,
    left: real,
    top: real,
    width: real,
    height: real,
    scaleX: Option<real>,
    scaleY: Option<real>,
    angle: real,
    fill: string,
    stroke: string,
    strokeWidth: real,
    text: Option<string>,
    pathData: Option<string>)

  /** A canvas object carries a usable id (absent and "" are falsy). */
  predicate HasId(obj: CanvasObject) {
    Truthy(obj.id)
  }

  /** The size a component is drawn at: its base size times its scale. */
  function DrawnWidth(c: Component): real { c.width * OrOne(c.scaleX) }
  function DrawnHeight(c: Component): real { c.height * OrOne(c.scaleY) }

  /** The component an edited canvas object turns into: geometry and style
      come from the object, any residual scale is folded into width and
      height, text is taken only for TEXT and path data only for PATH;
      everything else (including embedded markup) is kept. */
  function MergeInto(comp: Component, obj: CanvasObject): (r: Component)
    requires HasId(obj)
    ensures r.id == obj.id.value
    ensures r.kind == FabricTypeToComponentType(obj.fabricType)
    ensures r.x == obj.left && r.y == obj.top && r.rotation == obj.angle
    ensures r.fill == obj.fill && r.stroke == obj.stroke && r.strokeWidth == obj.strokeWidth
    ensures r.scaleX == Some(1.0) && r.scaleY == Some(1.0)
    ensures r.text == (if r.kind == Text then obj.text else comp.text)
    ensures r.path == (if r.kind == Path then obj.pathData else comp.path)
    ensures r.svgString == comp.svgString
  {
    var componentType := FabricTypeToComponentType(obj.fabricType);
    comp.(
      id := obj.id.value,
      kind := componentType,
      x := obj.left,
      y := obj.top,
      width := obj.width * OrOne(obj.scaleX),
      height := obj.height * OrOne(obj.scaleY),
      scaleX := Some(1.0),
      scaleY := Some(1.0),
      rotation := obj.angle,
      fill := obj.fill,
      stroke := obj.stroke,
      strokeWidth := obj.strokeWidth,
      text := if componentType == Text then obj.text else comp.text,
      path := if componentType == Path then obj.pathData else comp.path)
  }

  /** Scale folding: the merged component is drawn at the size the canvas
      object showed, with its scale normalised to 1. */
  lemma MergeFoldsScale(comp: Component, obj: CanvasObject)
    requires HasId(obj)
    ensures DrawnWidth(MergeInto(comp, obj)) == obj.width * OrOne(obj.scaleX)
    ensures DrawnHeight(MergeInto(comp, obj)) == obj.height * OrOne(obj.scaleY)
    ensures MergeInto(comp, obj).width == DrawnWidth(MergeInto(comp, obj))
  {
  }

  /** Merging the same canvas object twice is merging it once. */
  lemma MergeIntoIdempotent(comp: Component, obj: CanvasObject)
    requires HasId(obj)
    ensures MergeInto(MergeInto(comp, obj), obj) == MergeInto(comp, obj)
  {
  }

  /** Replaces every component whose id is the object's id by the merged
      component; all others stay as they are, in place. */
  function MergeById(cs: seq<Component>, obj: CanvasObject): (r: seq<Component>)
    requires HasId(obj)
    ensures |r| == |cs|
    ensures forall i :: 0 <= i < |cs| && cs[i].id == obj.id.value ==> r[i] == MergeInto(cs[i], obj)
    ensures forall i :: 0 <= i < |cs| && cs[i].id != obj.id.value ==> r[i] == cs[i]
  {
    seq(|cs|, i requires 0 <= i < |cs| =>
      if cs[i].id == obj.id.value then MergeInto(cs[i], obj) else cs[i])
  }

  /** The updater `updateStateFromCanvasObject` passes: an absent list stays
      absent; otherwise a new array (identity `ref`) with the merge applied. */
  function MergeUpdater(obj: CanvasObject, ref: nat): Option<Snapshot> -> Option<Snapshot>
    requires HasId(obj)
  {
    (prev: Option<Snapshot>) => if prev.None? then None else Some(Snapshot(ref, MergeById(prev.value.components, obj)))
  }

  /** `updateStateFromCanvasObject`: an object without an id changes nothing;
      otherwise the merge goes through the history's entry point. `ref` is
      the identity of the array the merge allocates. */
  function SyncFromCanvas(h: History, obj: CanvasObject, ref: nat): (r: History)
    requires h.present.Some? ==> h.present.value.ref != ref
    ensures !HasId(obj) ==> r == h
    ensures h.present.None? ==> r == h
    ensures HasId(obj) && h.present.Some? ==>
      && r.past == h.past + [h.present.value]
      && r.future == []
      && r.present == Some(Snapshot(ref, MergeById(h.present.value.components, obj)))
  {
    if !HasId(obj) then h else Set(h, Update(MergeUpdater(obj, ref)))
  }

  /** An edit of an object no component matches still records a new
      history entry with the same components: the no-op test is by identity. */
  lemma UnmatchedSyncStillRecorded(h: History, obj: CanvasObject, ref: nat)
    requires h.present.Some? && h.present.value.ref != ref && HasId(obj)
    requires forall c :: c in h.present.value.components ==> c.id != obj.id.value
    ensures SyncFromCanvas(h, obj, ref).present.value.components == h.present.value.components
    ensures CanUndo(SyncFromCanvas(h, obj, ref))
  {
    var cs := h.present.value.components;
    var r := MergeById(cs, obj);
    assert forall i :: 0 <= i < |cs| ==> cs[i] in cs;
    assert r == cs;
  }

  /** The geometry and style of the canvas object the editor builds for a
      rectangle or ellipse component (an ellipse's radii are half its size,
      and the canvas derives its width and height back from them). */
  function CanvasObjectFor(c: Component): (obj: CanvasObject)
    requires c.kind == Rect || c.kind == Ellipse
    ensures obj.id == Some(c.id)
    ensures obj.width == c.width && obj.height == c.height
    ensures obj.scaleX == Some(OrOne(c.scaleX)) && obj.scaleY == Some(OrOne(c.scaleY))
  {
    CanvasObject(
      Some(c.id), Some(FabricTypeName(c.kind)), c.x, c.y,
      if c.kind == Rect then c.width else 2.0 * (c.width / 2.0),
      if c.kind == Rect then c.height else 2.0 * (c.height / 2.0),
      Some(OrOne(c.scaleX)), Some(OrOne(c.scaleY)),
      c.rotation, c.fill, c.stroke, c.strokeWidth, None, None)
  }

  /** Building the canvas object for a rectangle or ellipse and reading it
      straight back gives the component again, drawn at the same size with
      its scale folded into width and height and written as 1; at unit
      scale that is the component with both scales written as 1, which is
      the component itself only when its scales were already 1. */
  lemma CanvasRoundTrip(c: Component)
    requires c.kind == Rect || c.kind == Ellipse
    requires c.id != ""
    ensures MergeInto(c, CanvasObjectFor(c))
            == c.(width := DrawnWidth(c), height := DrawnHeight(c), scaleX := Some(1.0), scaleY := Some(1.0))
    ensures OrOne(c.scaleX) == 1.0 && OrOne(c.scaleY) == 1.0 ==>
              MergeInto(c, CanvasObjectFor(c)) == c.(scaleX := Some(1.0), scaleY := Some(1.0))
  {
    FabricTypeRoundTrip(c.kind, FabricTypeName(c.kind));
  }

  /** `prev.filter(c => c.id !== targetId)`; an absent target id matches no
      component. */
  function DeleteById(cs: seq<Component>, targetId: Option<string>): (r: seq<Component>)
    ensures |r| <= |cs|
    ensures forall c :: c in r ==> c in cs && Some(c.id) != targetId
    ensures forall c :: c in cs && Some(c.id) != targetId ==> c in r
    decreases |cs|
  {
    if |cs| == 0 then []
    else if Some(cs[0].id) != targetId then [cs[0]] + DeleteById(cs[1..], targetId)
    else DeleteById(cs[1..], targetId)
  }

  /** Deleting from a concatenation deletes from each part: the survivors
      keep their relative order. */
  lemma {:induction false} DeleteConcat(a: seq<Component>, b: seq<Component>, targetId: Option<string>)
    ensures DeleteById(a + b, targetId) == DeleteById(a, targetId) + DeleteById(b, targetId)
    decreases |a|
  {
    if |a| == 0 {
      assert a + b == b;
    } else {
      assert (a + b)[1..] == a[1..] + b;
      DeleteConcat(a[1..], b, targetId);
    }
  }

  /** Deleting an id nobody has keeps the list as it is. */
  lemma {:induction false} DeleteAbsentKeepsAll(cs: seq<Component>, targetId: Option<string>)
    requires forall i :: 0 <= i < |cs| ==> Some(cs[i].id) != targetId
    ensures DeleteById(cs, targetId) == cs
    decreases |cs|
  {
    if |cs| > 0 {
      DeleteAbsentKeepsAll(cs[1..], targetId);
      assert [cs[0]] + cs[1..] == cs;
    }
  }

  /** Deleting twice is deleting once. */
  lemma DeleteIdempotent(cs: seq<Component>, targetId: Option<string>)
    ensures DeleteById(DeleteById(cs, targetId), targetId) == DeleteById(cs, targetId)
  {
    var r := DeleteById(cs, targetId);
    assert forall i :: 0 <= i < |r| ==> r[i] in r;
    DeleteAbsentKeepsAll(r, targetId);
  }

  /** `deleteActiveObject`: the filtered list becomes the present; an absent
      list stays absent (and the history with it). */
  function DeleteActive(h: History, targetId: Option<string>, ref: nat): (r: History)
    requires h.present.Some? ==> h.present.value.ref != ref
    ensures h.present.None? ==> r == h
    ensures h.present.Some? ==>
      && r.past == h.past + [h.present.value]
      && r.future == []
      && r.present == Some(Snapshot(ref, DeleteById(h.present.value.components, targetId)))
  {
    Set(h, Update((prev: Option<Snapshot>) => if prev.None? then None else Some(Snapshot(ref, DeleteById(prev.value.components, targetId)))))
  }

  /** `[...(prev || []), c]`: the new component goes at the end, an absent
      list counting as empty. */
  function AppendComponent(prev: Option<seq<Component>>, c: Component): (r: seq<Component>)
    ensures |r| == |prev.GetOr([])| + 1
    ensures r[..|r| - 1] == prev.GetOr([]) && r[|r| - 1] == c
  {
    prev.GetOr([]) + [c]
  }

  /** Adding a component through the history: it becomes the last element
      of the new present, and the old present (if any) is recorded. */
  function AddComponent(h: History, c: Component, ref: nat): (r: History)
    requires h.present.Some? ==> h.present.value.ref != ref
    ensures r.future == []
    ensures r.past == h.past + h.present.ToSeq()
    ensures r.present.Some? && r.present.value.ref == ref
    ensures r.present.value.components ==
              (if h.present.Some? then h.present.value.components else []) + [c]
  {
    Set(h, Update((prev: Option<Snapshot>) => Some(Snapshot(ref,
      AppendComponent(if prev.Some? then Some(prev.value.components) else None, c)))))
  }

  /** One undo after an add goes back to the list before it, with the
      added list heading the future; a redo adds it again. */
  lemma UndoAfterAdd(h: History, c: Component, ref: nat)
    requires h.present.Some? && h.present.value.ref != ref
    ensures var a := AddComponent(h, c, ref);
      && Undo(a).present == h.present
      && Undo(a).past == h.past
      && Undo(a).future == [a.present.value]
      && Redo(Undo(a)) == a
  {
  }
}

=== FILE: converter.dfy ===
/** The converter hook's state outside the editor: the analysis status, the
    selected file and its preview, the viewBox, the error message, and the
    history. File selection (with its size limit), reset, the two halves of
    a conversion, and the derived markup are modelled; the analysis itself
    is an outside service whose outcome is a parameter. */
module Converter {
  import opened Wrappers
  import opened Types
  import opened History
  import opened SvgSerializer

  /** The only property of a chosen file the hook inspects is its size in bytes. */
  datatype File = File(size: nat)

  /** `hasPreview` stands for the object URL made for the selected image. */
  datatype State = State(
    status: AnalysisStatus,
    selectedFile: Option<File>,
    hasPreview: bool,
    viewBox: ViewBox,
    error: Option<string>,
    history: History)

  /** The outcome of the analysis call: a response, or an error that may or
      may not carry a message. */
  datatype AnalysisOutcome = Analyzed(response: AnalysisResponse) | Failed(message: Option<string>)

  const MaxFileSize: nat := 4 * 1024 * 1024
  const SizeLimitMessage: string := "File size exceeds 4MB limit."
  const UnknownErrorMessage: string := "An unknown error occurred."

  /** The state the hook starts in: idle, nothing chosen, a 500 by 400 viewBox. */
  function Initial(): (st: State)
    ensures st.status == Idle && st.history == Empty()
  {
    State(Idle, None, false, ViewBox(500.0, 400.0), None, Empty())
  }

  /** `resetState`: back to idle with no file, preview, error or history.
      The viewBox is kept. */
  function ResetState(st: State): (r: State)
    ensures r.status == Idle && r.selectedFile.None? && !r.hasPreview && r.error.None?
    ensures Timeline(r.history) == [] && !CanUndo(r.history) && !CanRedo(r.history)
    ensures r.viewBox == st.viewBox
  {
    st.(status := Idle, selectedFile := None, hasPreview := false, history := Empty(), error := None)
  }

  /** `handleFileSelect`: everything is reset first; a file over 4 MiB is then
      refused with an error, any other file is selected and previewed. */
  function FileSelect(st: State, file: Option<File>): (r: State)
    ensures Timeline(r.history) == [] && r.viewBox == st.viewBox
    ensures file.None? ==> r == ResetState(st)
    ensures file.Some? && file.value.size > MaxFileSize ==>
      r.status == Errored && r.error == Some(SizeLimitMessage) && r.selectedFile.None? && !r.hasPreview
    ensures file.Some? && file.value.size <= MaxFileSize ==>
      r.status == Idle && r.error.None? && r.selectedFile == file && r.hasPreview
  {
    var r := ResetState(st);
    match file
    case None => r
    case Some(f) =>
      if f.size > MaxFileSize then r.(error := Some(SizeLimitMessage), status := Errored)
      else r.(selectedFile := Some(f), hasPreview := true)
  }

  /** The limit is inclusive: exactly 4 MiB is accepted, one byte more is
      refused with a message naming the limit, and no preview is made. */
  lemma FileSizeBoundary(st: State)
    ensures FileSelect(st, Some(File(4194304))).selectedFile == Some(File(4194304))
    ensures var r := FileSelect(st, Some(File(4194305)));
      r.status == Errored && !r.hasPreview && r.error.Some?
      && r.error.value[18..21] == "4MB"
    ensures FileSelect(st, Some(File(5 * 1024 * 1024))).status == Errored
  {
  }

  /** `handleConvert` up to the call: without a file nothing happens;
      otherwise the status becomes ANALYZING and error and history are cleared. */
  function BeginConvert(st: State): (r: State)
    ensures st.selectedFile.None? ==> r == st
    ensures st.selectedFile.Some? ==>
      r.status == Analyzing && r.error.None? && Timeline(r.history) == []
      && r.selectedFile == st.selectedFile
    ensures r.hasPreview == st.hasPreview && r.viewBox == st.viewBox
  {
    if st.selectedFile.None? then st
    else st.(status := Analyzing, error := None, history := Empty())
  }

  /** `handleConvert` after the call returns. A response replaces the history
      wholesale by one whose present is the response's components (a new
      array, identity `ref`) and adopts its viewBox; a failure records its
      message, or a generic one. The file and its preview are kept either way. */
  function FinishConvert(st: State, outcome: AnalysisOutcome, ref: nat): (r: State)
    ensures outcome.Analyzed? ==>
      && r.status == Succeeded
      && r.history == Loaded(Snapshot(ref, outcome.response.components))
      && r.viewBox == outcome.response.viewBox
    ensures outcome.Failed? ==>
      && r.status == Errored && r.history == st.history
      && r.error == Some(if outcome.message.Some? then outcome.message.value else UnknownErrorMessage)
    ensures r.selectedFile == st.selectedFile && r.hasPreview == st.hasPreview
    ensures outcome.Analyzed? ==> r.error == st.error
    ensures outcome.Failed? ==> r.viewBox == st.viewBox
  {
    match outcome
    case Analyzed(resp) =>
      st.(history := Loaded(Snapshot(ref, resp.components)), viewBox := resp.viewBox, status := Succeeded)
    case Failed(msg) =>
      st.(error := Some(msg.GetOr(UnknownErrorMessage)), status := Errored)
  }

  /** A conversion leaves nothing to undo or redo, whether it succeeds or fails. */
  lemma ConvertLeavesNoHistory(st: State, outcome: AnalysisOutcome, ref: nat)
    requires st.selectedFile.Some?
    ensures var r := FinishConvert(BeginConvert(st), outcome, ref);
      !CanUndo(r.history) && !CanRedo(r.history)
      && (outcome.Analyzed? <==> r.history.present.Some?)
  {
  }

  /** The result of an analysis still in flight is installed even after a
      reset: the completion does not check whether the request is current. */
  lemma ResultAfterResetStillApplied(st: State, f: File, resp: AnalysisResponse, ref: nat)
    requires f.size <= MaxFileSize
    ensures var r := FinishConvert(ResetState(BeginConvert(FileSelect(st, Some(f)))), Analyzed(resp), ref);
      r.status == Succeeded && r.selectedFile.None? && r.history.present.Some?
  {
  }

  /** The markup shown and downloaded: the present diagram serialized with
      the current viewBox, and nothing when there is no present. */
  function SvgContent(st: State, fmt: real -> string): (r: Option<string>)
    ensures r.Some? <==> st.history.present.Some?
    ensures r.Some? ==> Serialize(st.history.present.value.components, st.viewBox, fmt) == r.value
  {
    match st.history.present
    case None => None
    case Some(s) => Some(Serialize(s.components, st.viewBox, fmt))
  }

  /** Undo and redo change what is shown only by moving along the timeline:
      after an undo the markup is that of the last past snapshot. */
  lemma UndoShowsPreviousSnapshot(st: State, fmt: real -> string)
    requires CanUndo(st.history)
    ensures var r := st.(history := Undo(st.history));
      SvgContent(r, fmt) == Some(Serialize(st.history.past[|st.history.past| - 1].components, st.viewBox, fmt))
  {
  }
}

=== FILE: drawing.dfy ===
/** The shape-drawing gesture of the editor: a preview shape is created on
    pointer-down, reshaped on every pointer-move, and on pointer-up either
    discarded (too small) or turned into a new component. The pencil's
    captured path becomes a PATH component directly. */
module Drawing {
  import opened Wrappers
  import opened Types

  datatype Point = Point(x: real, y: real)

  datatype Tool = Select | Pencil | Line | Rectangle | EllipseTool | TextPlacement

  /** The style the toolbar currently applies to new shapes. */
  datatype ToolProps = ToolProps(stroke: string, strokeWidth: real, fill: string)

  /** The temporary shape shown while dragging. A line keeps its two end
      points; a rectangle its box; an ellipse its corner and radii. */
  datatype Preview =
    | LinePreview(x1: real, y1: real, x2: real, y2: real, props: ToolProps)
    | RectPreview(left: real, top: real, width: real, height: real, props: ToolProps)
    | EllipsePreview(left: real, top: real, rx: real, ry: real, props: ToolProps)

  /** The axis-aligned box a drag spans. */
  datatype Box = Box(left: real, top: real, width: real, height: real)

  function Abs(v: real): real { if v < 0.0 then -v else v }
  function Min(a: real, b: real): real { if a <= b then a else b }
  function Max(a: real, b: real): real { if a <= b then b else a }

  /** The name each drawing tool uses in the ids it generates. */
  function ToolName(t: Tool): string {
    match t
    case Select => "select"
    case Pencil => "pencil"
    case Line => "line"
    case Rectangle => "rectangle"
    case EllipseTool => "ellipse"
    case TextPlacement => "text"
  }

  /** Pointer-down: the drawing tools start a zero-size preview at the
      pointer; the others start no gesture. */
  function MouseDown(tool: Tool, p: Point, props: ToolProps): (r: Option<Preview>)
    ensures r.Some? <==> tool == Line || tool == Rectangle || tool == EllipseTool
    ensures r.Some? ==> Discarded(r.value)
  {
    match tool
    case Line => Some(LinePreview(p.x, p.y, p.x, p.y, props))
    case Rectangle => Some(RectPreview(p.x, p.y, 0.0, 0.0, props))
    case EllipseTool => Some(EllipsePreview(p.x, p.y, 0.0, 0.0, props))
    case _ => None
  }

  /** Drag normalisation: the box between the start and the pointer, whatever
      direction the drag went in. Its two opposite corners are the two points. */
  function DragBox(start: Point, pointer: Point): (b: Box)
    ensures b.width >= 0.0 && b.height >= 0.0
    ensures b.left == Min(start.x, pointer.x) && b.top == Min(start.y, pointer.y)
    ensures b.left + b.width == Max(start.x, pointer.x)
    ensures b.top + b.height == Max(start.y, pointer.y)
  {
    Box(Min(pointer.x, start.x), Min(pointer.y, start.y),
        Abs(pointer.x - start.x), Abs(pointer.y - start.y))
  }

  /** The box does not depend on which of the two points the drag started at. */
  lemma DragBoxSymmetric(a: Point, b: Point)
    ensures DragBox(a, b) == DragBox(b, a)
  {
  }

  /** Pointer-move: a line's second end follows the pointer; a rectangle or
      ellipse is refitted to the drag box. */
  function MouseMove(shape: Preview, start: Point, pointer: Point): (r: Preview)
    ensures r.props == shape.props
    ensures shape.LinePreview? ==> r == shape.(x2 := pointer.x, y2 := pointer.y)
    ensures shape.RectPreview? ==> r.RectPreview? && PreviewBox(r) == DragBox(start, pointer)
    ensures shape.EllipsePreview? ==> r.EllipsePreview? && PreviewBox(r) == DragBox(start, pointer)
  {
    var b := DragBox(start, pointer);
    match shape
    case LinePreview(_, _, _, _, _) => shape.(x2 := pointer.x, y2 := pointer.y)
    case RectPreview(_, _, _, _, _) => shape.(left := b.left, top := b.top, width := b.width, height := b.height)
    case EllipsePreview(_, _, _, _, _) => shape.(left := b.left, top := b.top, rx := b.width / 2.0, ry := b.height / 2.0)
  }

  /** The box a rectangle or ellipse preview occupies; the canvas derives an
      ellipse's width and height as twice its radii. */
  function PreviewBox(shape: Preview): Box
    requires !shape.LinePreview?
  {
    match shape
    case RectPreview(l, t, w, h, _) => Box(l, t, w, h)
    case EllipsePreview(l, t, rx, ry, _) => Box(l, t, rx * 2.0, ry * 2.0)
  }

  /** Pointer-up threshold: a rectangle or ellipse is dropped when both its
      sides are under 2 (for an ellipse, both radii under 1); a line when
      both its extents are under 2. */
  function Discarded(shape: Preview): (b: bool)
    ensures shape.LinePreview? ==> (b <==> Abs(shape.x1 - shape.x2) < 2.0 && Abs(shape.y1 - shape.y2) < 2.0)
    ensures shape.RectPreview? ==> (b <==> shape.width < 2.0 && shape.height < 2.0)
    ensures shape.EllipsePreview? ==> (b <==> shape.rx < 1.0 && shape.ry < 1.0)
  {
    match shape
    case LinePreview(x1, y1, x2, y2, _) => Abs(x1 - x2) < 2.0 && Abs(y1 - y2) < 2.0
    case _ => PreviewBox(shape).width < 2.0 && PreviewBox(shape).height < 2.0
  }

  /** Pointer-up: the preview becomes a new component unless it is too small.
      The id is the tool's name, a dash, and the caller's time stamp. A line
      becomes a transparent PATH from its first to its second end point. */
  function MouseUp(shape: Preview, stamp: string, fmt: real -> string): (r: Option<Component>)
    ensures r.None? <==> Discarded(shape)
    ensures r.Some? ==>
      && r.value.rotation == 0.0 && r.value.scaleX == Some(1.0) && r.value.scaleY == Some(1.0)
      && r.value.stroke == shape.props.stroke && r.value.strokeWidth == shape.props.strokeWidth
    ensures r.Some? && shape.LinePreview? ==>
      && r.value.kind == Path && r.value.fill == "transparent"
      && r.value.id == ToolName(Line) + "-" + stamp
      && Box(r.value.x, r.value.y, r.value.width, r.value.height)
         == DragBox(Point(shape.x1, shape.y1), Point(shape.x2, shape.y2))
      && r.value.path == Some("M " + fmt(shape.x1) + " " + fmt(shape.y1) + " L " + fmt(shape.x2) + " " + fmt(shape.y2))
    ensures r.Some? && !shape.LinePreview? ==>
      && r.value.kind == (if shape.RectPreview? then Rect else Ellipse)
      && r.value.id == ToolName(if shape.RectPreview? then Rectangle else EllipseTool) + "-" + stamp
      && r.value.fill == shape.props.fill
      && Box(r.value.x, r.value.y, r.value.width, r.value.height) == PreviewBox(shape)
  {
    if Discarded(shape) then None
    else
      match shape
      case LinePreview(x1, y1, x2, y2, props) =>
        Some(Component(ToolName(Line) + "-" + stamp, Path, Min(x1, x2), Min(y1, y2), Abs(x1 - x2), Abs(y1 - y2),
          0.0, "transparent", props.stroke, props.strokeWidth, None,
          Some("M " + fmt(x1) + " " + fmt(y1) + " L " + fmt(x2) + " " + fmt(y2)), None, Some(1.0), Some(1.0)))
      case RectPreview(l, t, w, h, props) =>
        Some(Component(ToolName(Rectangle) + "-" + stamp, Rect, l, t, w, h,
          0.0, props.fill, props.stroke, props.strokeWidth, None, None, None, Some(1.0), Some(1.0)))
      case EllipsePreview(l, t, rx, ry, props) =>
        Some(Component(ToolName(EllipseTool) + "-" + stamp, Ellipse, l, t, rx * 2.0, ry * 2.0,
          0.0, props.fill, props.stroke, props.strokeWidth, None, None, None, Some(1.0), Some(1.0)))
  }

  /** A whole rectangle or ellipse drag (down, one move, up): the new
      component covers exactly the drag box, and it is kept precisely when
      the drag moved at least 2 along some axis. */
  lemma DragGesture(tool: Tool, start: Point, end: Point, props: ToolProps, stamp: string, fmt: real -> string)
    requires tool == Rectangle || tool == EllipseTool
    ensures var shape := MouseMove(MouseDown(tool, start, props).value, start, end);
      var r := MouseUp(shape, stamp, fmt);
      && (r.Some? <==> Abs(end.x - start.x) >= 2.0 || Abs(end.y - start.y) >= 2.0)
      && (r.Some? ==> Box(r.value.x, r.value.y, r.value.width, r.value.height) == DragBox(start, end)
                      && r.value.kind == (if tool == Rectangle then Rect else Ellipse))
  {
  }

  /** A whole line drag: kept precisely when the pointer moved at least 2
      along some axis, and then its box is the drag box. */
  lemma LineGesture(start: Point, end: Point, props: ToolProps, stamp: string, fmt: real -> string)
    ensures var shape := MouseMove(MouseDown(Line, start, props).value, start, end);
      var r := MouseUp(shape, stamp, fmt);
      && (r.Some? <==> Abs(end.x - start.x) >= 2.0 || Abs(end.y - start.y) >= 2.0)
      && (r.Some? ==> Box(r.value.x, r.value.y, r.value.width, r.value.height) == DragBox(start, end)
                      && r.value.kind == Path)
  {
  }

  /** Dragging from (10,10) to (50,80) with the rectangle tool yields one
      RECT at (10,10) of size 40 by 70; dragging to (12,11) still yields a
      component, since only one of its sides is under 2; dragging to (11,11)
      yields none. */
  lemma RectangleDragExamples(props: ToolProps, stamp: string, fmt: real -> string)
    ensures var r := MouseUp(MouseMove(RectPreview(10.0, 10.0, 0.0, 0.0, props), Point(10.0, 10.0), Point(50.0, 80.0)), stamp, fmt);
      r.Some? && r.value.kind == Rect && r.value.x == 10.0 && r.value.y == 10.0
      && r.value.width == 40.0 && r.value.height == 70.0
    ensures MouseUp(MouseMove(RectPreview(10.0, 10.0, 0.0, 0.0, props), Point(10.0, 10.0), Point(12.0, 11.0)), stamp, fmt).Some?
    ensures MouseUp(MouseMove(RectPreview(10.0, 10.0, 0.0, 0.0, props), Point(10.0, 10.0), Point(11.0, 11.0)), stamp, fmt).None?
  {
  }

  /** `onPathCreated`: the pencil's captured path becomes a transparent PATH
      component at the path's position and size, in the toolbar's stroke. */
  function PencilComponent(pathData: string, left: real, top: real, width: real, height: real,
                           props: ToolProps, stamp: string): (c: Component)
    ensures c.kind == Path && c.path == Some(pathData) && c.fill == "transparent"
    ensures c.id == "path-" + stamp
    ensures c.x == left && c.y == top && c.width == width && c.height == height
    ensures c.stroke == props.stroke && c.strokeWidth == props.strokeWidth
    ensures c.rotation == 0.0 && c.scaleX == Some(1.0) && c.scaleY == Some(1.0)
  {
    Component("path-" + stamp, Path, left, top, width, height, 0.0, "transparent",
      props.stroke, props.strokeWidth, None, Some(pathData), None, Some(1.0), Some(1.0))
  }
}

=== FILE: history.dfy ===
/** The undo/redo history of the converter hook: a list of past snapshots,
    the present snapshot (absent before any diagram exists) and a list of
    future snapshots, changed only by `Set`, `Undo` and `Redo`. */
module History {
  import opened Wrappers
  import opened Types

  /** A component list held by reference. `ref` is the identity of the array
      object; the history's no-op test compares identities, never contents. */
  datatype Snapshot = Snapshot(ref: nat, components: seq<Component>)

  datatype History = History(past: seq<Snapshot>, present: Option<Snapshot>, future: seq<Snapshot>)

  /** The argument of the single mutation entry point: a replacement value,
      or an updater applied to the current present. */
  datatype Action =
    | Replace(value: Option<Snapshot>)
    | Update(f: Option<Snapshot> -> Option<Snapshot>)

  /** JavaScript `a === b` on two possibly-null arrays. */
  predicate SameRef(a: Option<Snapshot>, b: Option<Snapshot>) {
    match a
    case None => b.None?
    case Some(s) => b.Some? && b.value.ref == s.ref
  }

  /** Every snapshot the history holds, oldest first; the present (if any)
      sits between past and future. */
  function Timeline(h: History): seq<Snapshot> {
    h.past + h.present.ToSeq() + h.future
  }

  /** The history before any diagram exists, and after a reset. */
  function Empty(): (h: History)
    ensures Timeline(h) == []
    ensures h.present.None?
  {
    History([], None, [])
  }

  /** A history whose only snapshot is `s` (what a finished analysis installs). */
  function Loaded(s: Snapshot): (h: History)
    ensures Timeline(h) == [s]
    ensures h.present == Some(s)
    ensures |h.past| == 0 && |h.future| == 0
  {
    History([], Some(s), [])
  }

  function Resolve(a: Action, present: Option<Snapshot>): Option<Snapshot> {
    match a
    case Replace(v) => v
    case Update(f) => f(present)
  }

  /** `setDiagramComponents`: a result identical to the present leaves the
      history alone; any other result becomes the present, the old present
      (when there is one) closes the past, and the future is dropped. */
  function Set(h: History, action: Action): (r: History)
    ensures var n := Resolve(action, h.present);
      && (SameRef(h.present, n) <==> r == h)
      && (!SameRef(h.present, n) ==>
            && r.present == n
            && r.future == []
            && r.past == (if h.present.Some? then h.past + [h.present.value] else h.past)
            && Timeline(r) == h.past + h.present.ToSeq() + n.ToSeq())
  {
    var n := Resolve(action, h.present);
    if SameRef(h.present, n) then h
    else
      var newPast := if h.present.Some? then h.past + [h.present.value] else h.past;
      History(newPast, n, [])
  }

  /** `canUndo`: some snapshot of the timeline lies before the present. */
  function CanUndo(h: History): (b: bool)
    ensures b <==> |Timeline(h)| > |h.present.ToSeq()| + |h.future|
  {
    |h.past| > 0
  }

  /** `canRedo`: some snapshot of the timeline lies after the present. */
  function CanRedo(h: History): (b: bool)
    ensures b <==> |Timeline(h)| > |h.past| + |h.present.ToSeq()|
  {
    |h.future| > 0
  }

  /** `undo`: the last past snapshot becomes the present and the old present
      (when there is one) heads the future. The timeline never changes. */
  function Undo(h: History): (r: History)
    ensures Timeline(r) == Timeline(h)
    ensures !CanUndo(h) ==> r == h
    ensures CanUndo(h) ==>
      && r.present == Some(h.past[|h.past| - 1])
      && r.past == h.past[..|h.past| - 1]
      && r.future == h.present.ToSeq() + h.future
  {
    if |h.past| == 0 then h
    else
      var previous := h.past[|h.past| - 1];
      var newPast := h.past[..|h.past| - 1];
      var newFuture := if h.present.Some? then [h.present.value] + h.future else h.future;
      assert h.past == newPast + [previous];
      History(newPast, Some(previous), newFuture)
  }

  /** `redo`: the first future snapshot becomes the present and the old
      present (when there is one) closes the past. The timeline never changes. */
  function Redo(h: History): (r: History)
    ensures Timeline(r) == Timeline(h)
    ensures !CanRedo(h) ==> r == h
    ensures CanRedo(h) ==>
      && r.present == Some(h.future[0])
      && r.future == h.future[1..]
      && r.past == h.past + h.present.ToSeq()
  {
    if |h.future| == 0 then h
    else
      var next := h.future[0];
      var newFuture := h.future[1..];
      var newPast := if h.present.Some? then h.past + [h.present.value] else h.past;
      assert h.future == [next] + newFuture;
      History(newPast, Some(next), newFuture)
  }

  /** The availability flags are exact: undo (redo) is offered precisely when
      it would change the history. */
  lemma CanUndoExact(h: History)
    ensures CanUndo(h) <==> Undo(h) != h
    ensures CanRedo(h) <==> Redo(h) != h
  {
    if CanUndo(h) {
      assert |Undo(h).past| == |h.past| - 1;
    }
    if CanRedo(h) {
      assert |Redo(h).future| == |h.future| - 1;
    }
  }

  /** Undo then redo restores the exact history when there is a present and
      something to undo; the number of stored snapshots is unchanged. */
  lemma UndoThenRedo(h: History)
    requires h.present.Some? && CanUndo(h)
    ensures Redo(Undo(h)) == h
    ensures |Undo(h).past| + |Undo(h).future| == |h.past| + |h.future|
  {
    var u := Undo(h);
    assert u.past + [u.present.value] == h.past;
  }

  /** Redo then undo restores the exact history when there is a present and
      something to redo. */
  lemma RedoThenUndo(h: History)
    requires h.present.Some? && CanRedo(h)
    ensures Undo(Redo(h)) == h
    ensures |Redo(h).past| + |Redo(h).future| == |h.past| + |h.future|
  {
    var r := Redo(h);
    assert [r.present.value] + r.future == h.future;
  }

  /** Once a present exists, undo and redo never make it absent again. */
  lemma NavigationKeepsPresent(h: History)
    requires h.present.Some?
    ensures Undo(h).present.Some? && Redo(h).present.Some?
  {
  }

  /** With a present, the timeline and the length of the past pin the whole
      history down: the present is the timeline entry at that position. */
  lemma CursorDetermines(a: History, b: History)
    requires a.present.Some? && b.present.Some?
    requires Timeline(a) == Timeline(b) && |a.past| == |b.past|
    ensures a == b
  {
    var t, n := Timeline(a), |a.past|;
    assert a.past == t[..n] == b.past;
    assert a.present.value == t[n] == b.present.value;
    assert a.future == t[n + 1..] == b.future;
  }

  function UndoTimes(h: History, k: nat): History
    decreases k
  {
    if k == 0 then h else UndoTimes(Undo(h), k - 1)
  }

  function RedoTimes(h: History, k: nat): History
    decreases k
  {
    if k == 0 then h else RedoTimes(Redo(h), k - 1)
  }

  /** `k` undos (at most as many as there are past snapshots) move the cursor
      back by exactly `k` over an unchanged timeline. */
  lemma {:induction false} UndoTimesMovesCursor(h: History, k: nat)
    requires k <= |h.past|
    decreases k
    ensures var r := UndoTimes(h, k);
      Timeline(r) == Timeline(h) && |r.past| == |h.past| - k
      && |r.future| == |h.future| + k - (if h.present.None? && k > 0 then 1 else 0)
      && (k > 0 || h.present.Some? ==> r.present.Some?)
  {
    if k > 0 {
      var u := Undo(h);
      UndoTimesMovesCursor(u, k - 1);
    }
  }

  /** `k` redos (at most as many as there are future snapshots) move the
      cursor forward by exactly `k` over an unchanged timeline. */
  lemma {:induction false} RedoTimesMovesCursor(h: History, k: nat)
    requires h.present.Some? && k <= |h.future|
    decreases k
    ensures var r := RedoTimes(h, k);
      Timeline(r) == Timeline(h) && |r.past| == |h.past| + k && r.present.Some?
  {
    if k > 0 {
      RedoTimesMovesCursor(Redo(h), k - 1);
    }
  }

  /** Any number of undos followed by as many redos restores the history. */
  lemma UndoRedoTimesRoundTrip(h: History, k: nat)
    requires h.present.Some? && k <= |h.past|
    ensures RedoTimes(UndoTimes(h, k), k) == h
  {
    var u := UndoTimes(h, k);
    UndoTimesMovesCursor(h, k);
    RedoTimesMovesCursor(u, k);
    CursorDetermines(RedoTimes(u, k), h);
  }

  /** Applies the replacement values `xs` one after another. */
  function SetAll(h: History, xs: seq<Snapshot>): History
    decreases |xs|
  {
    if |xs| == 0 then h else SetAll(Set(h, Replace(Some(xs[0]))), xs[1..])
  }

  predicate FreshInTurn(h: History, xs: seq<Snapshot>) {
    && (|xs| > 0 && h.present.Some? ==> xs[0].ref != h.present.value.ref)
    && forall i :: 0 < i < |xs| ==> xs[i].ref != xs[i - 1].ref
  }

  /** A run of replacements, each not identical to the one before, records
      every one of them: starting from a present it pushes that present and
      all but the last value into the past and leaves the last as present. */
  lemma {:induction false} SetAllRecords(h: History, xs: seq<Snapshot>)
    requires FreshInTurn(h, xs) && |xs| > 0
    decreases |xs|
    ensures var r := SetAll(h, xs);
      && r.past == h.past + h.present.ToSeq() + xs[..|xs| - 1]
      && r.present == Some(xs[|xs| - 1])
      && r.future == []
  {
    var h' := Set(h, Replace(Some(xs[0])));
    assert h'.present == Some(xs[0]);
    if |xs| > 1 {
      assert FreshInTurn(h', xs[1..]);
      SetAllRecords(h', xs[1..]);
      assert xs[1..][..|xs| - 2] == xs[1..|xs| - 1];
      assert [xs[0]] + xs[1..|xs| - 1] == xs[..|xs| - 1];
    }
  }

  /** Starting from the empty history, `n` recorded edits can be undone only
      `n - 1` times, and then the present is the first edit's value: the
      absent starting state is never pushed, so it cannot be returned to.
      Redoing as many times restores the last edit. */
  lemma UndoAllFromEmpty(xs: seq<Snapshot>)
    requires FreshInTurn(Empty(), xs) && |xs| > 0
    ensures var r := SetAll(Empty(), xs);
      && |r.past| == |xs| - 1
      && UndoTimes(r, |xs| - 1).present == Some(xs[0])
      && !CanUndo(UndoTimes(r, |xs| - 1))
      && RedoTimes(UndoTimes(r, |xs| - 1), |xs| - 1) == r
  {
    var r := SetAll(Empty(), xs);
    SetAllRecords(Empty(), xs);
    assert Timeline(r) == xs;
    var u := UndoTimes(r, |xs| - 1);
    UndoTimesMovesCursor(r, |xs| - 1);
    assert Timeline(u) == xs && |u.past| == 0;
    UndoRedoTimesRoundTrip(r, |xs| - 1);
  }

  /** Undoing as many times as the past is longer than another history's
      with the same timeline arrives at that history. */
  lemma UndoTimesArrives(r: History, before: History, k: nat)
    requires r.present.Some? && before.present.Some? && Timeline(r) == Timeline(before)
    requires |r.past| == |before.past| + k
    ensures UndoTimes(r, k) == before
  {
    UndoTimesMovesCursor(r, k);
    CursorDetermines(UndoTimes(r, k), before);
  }

  /** From a present, `n` recorded edits can be undone `n` times, which
      returns exactly to the history before the edits except that the
      future now holds them; redoing as many times restores the last edit. */
  lemma UndoAllFromPresent(h: History, xs: seq<Snapshot>)
    requires h.present.Some? && FreshInTurn(h, xs) && |xs| > 0
    ensures var r := SetAll(h, xs);
      && UndoTimes(r, |xs|) == h.(future := xs)
      && RedoTimes(UndoTimes(r, |xs|), |xs|) == r
  {
    var r := SetAll(h, xs);
    SetAllRecords(h, xs);
    assert r.past == h.past + [h.present.value] + xs[..|xs| - 1];
    assert xs == xs[..|xs| - 1] + [xs[|xs| - 1]];
    UndoTimesArrives(r, h.(future := xs), |xs|);
    UndoRedoTimesRoundTrip(r, |xs|);
  }

  /** The no-op test is by identity: a new array with exactly the present's
      components is still recorded as an edit. */
  lemma EqualContentsStillRecorded(h: History, s: Snapshot)
    requires h.present.Some? && s.components == h.present.value.components
    requires s.ref != h.present.value.ref
    ensures Set(h, Replace(Some(s))) != h
    ensures Set(h, Replace(Some(s))).past == h.past + [h.present.value]
  {
  }
}

=== FILE: jstext.dfy ===
/** The JavaScript string primitives the editor relies on, over strings of
    Unicode scalar values: `trim`, `toLowerCase` (on the ASCII letters),
    `includes`/`startsWith`/`endsWith` for one character, and `length`,
    which counts UTF-16 code units. */
module JsText {

  /** ECMAScript WhiteSpace and LineTerminator code points: what `trim` removes. */
  predicate IsWhitespace(c: char) {
    || c == '\t' || c == '\n' || c == '\U{000B}' || c == '\U{000C}' || c == '\r'
    || c == ' ' || c == '\U{00A0}' || c == '\U{1680}'
    || ('\U{2000}' <= c <= '\U{200A}')
    || c == '\U{2028}' || c == '\U{2029}' || c == '\U{202F}' || c == '\U{205F}'
    || c == '\U{3000}' || c == '\U{FEFF}'
  }

  /** The four line terminators, which a regular-expression `.` does not match. */
  predicate IsLineTerminator(c: char) {
    c == '\n' || c == '\r' || c == '\U{2028}' || c == '\U{2029}'
  }

  /** Number of leading whitespace characters of `s`. */
  function LeadingWhitespace(s: string): (n: nat)
    ensures n <= |s|
    ensures forall k :: 0 <= k < n ==> IsWhitespace(s[k])
    ensures n < |s| ==> !IsWhitespace(s[n])
  {
    if |s| == 0 || !IsWhitespace(s[0]) then 0
    else 1 + LeadingWhitespace(s[1..])
  }

  /** The start of the whitespace run that ends `s`, not looking below `lo`. */
  function TrailingWhitespaceStart(s: string, lo: nat): (m: nat)
    requires lo <= |s|
    ensures lo <= m <= |s|
    ensures forall k :: m <= k < |s| ==> IsWhitespace(s[k])
    ensures m > lo ==> !IsWhitespace(s[m - 1])
    decreases |s|
  {
    if |s| == lo || !IsWhitespace(s[|s| - 1]) then |s|
    else TrailingWhitespaceStart(s[..|s| - 1], lo)
  }

  /** `s.trim()`: the slice of `s` between its leading and trailing
      whitespace; empty exactly when `s` is all whitespace. */
  function Trim(s: string): (r: string)
    ensures exists i, j ::
              && 0 <= i <= j <= |s| && r == s[i..j]
              && (forall k :: 0 <= k < i ==> IsWhitespace(s[k]))
              && (forall k :: j <= k < |s| ==> IsWhitespace(s[k]))
    ensures |r| > 0 ==> !IsWhitespace(r[0]) && !IsWhitespace(r[|r| - 1])
    ensures r == [] <==> forall k :: 0 <= k < |s| ==> IsWhitespace(s[k])
  {
    var i := LeadingWhitespace(s);
    var j := TrailingWhitespaceStart(s, i);
    s[i..j]
  }

  /** Trimming twice is trimming once. */
  lemma TrimIdempotent(s: string)
    ensures Trim(Trim(s)) == Trim(s)
  {
    var t := Trim(s);
    if |t| > 0 {
      assert LeadingWhitespace(t) == 0;
      assert TrailingWhitespaceStart(t, 0) == |t|;
      assert t[0..|t|] == t;
    }
  }

  /** `c.toLowerCase()` on one character: ASCII capitals become small letters,
      everything else is kept. */
  function LowerAscii(c: char): (d: char)
    ensures 'A' <= c <= 'Z' ==> 'a' <= d <= 'z' && d as int - c as int == 32
    ensures !('A' <= c <= 'Z') ==> d == c
  {
    if 'A' <= c <= 'Z' then (c as int + 32) as char else c
  }

  /** `s.toLowerCase()` for the ASCII letters; no ASCII capital survives. */
  function ToLower(s: string): (r: string)
    ensures |r| == |s|
    ensures forall k :: 0 <= k < |s| ==> r[k] == LowerAscii(s[k])
    ensures forall k :: 0 <= k < |r| ==> !('A' <= r[k] <= 'Z')
  {
    if |s| == 0 then [] else [LowerAscii(s[0])] + ToLower(s[1..])
  }

  /** Lower-casing is idempotent. */
  lemma ToLowerIdempotent(s: string)
    ensures ToLower(ToLower(s)) == ToLower(s)
  {
    var t := ToLower(s);
    assert forall k :: 0 <= k < |t| ==> ToLower(t)[k] == t[k];
  }

  predicate Contains(s: string, c: char) {
    exists k :: 0 <= k < |s| && s[k] == c
  }

  predicate StartsWith(s: string, c: char) {
    |s| > 0 && s[0] == c
  }

  predicate EndsWith(s: string, c: char) {
    |s| > 0 && s[|s| - 1] == c
  }

  /** `s.length`: characters outside the Basic Multilingual Plane count twice
      (they are surrogate pairs in UTF-16). */
  function Utf16Length(s: string): (n: nat)
    ensures |s| <= n <= 2 * |s|
    ensures (forall k :: 0 <= k < |s| ==> s[k] as int <= 0xFFFF) ==> n == |s|
    ensures |s| == 1 ==> n == (if s[0] as int > 0xFFFF then 2 else 1)
  {
    if |s| == 0 then 0
    else (if s[0] as int > 0xFFFF then 2 else 1) + Utf16Length(s[1..])
  }

  /** The code-unit count of a concatenation is the sum of the parts'
      counts; with the one-character case this fixes the count of every
      string. */
  lemma {:induction false} Utf16LengthConcat(a: string, b: string)
    ensures Utf16Length(a + b) == Utf16Length(a) + Utf16Length(b)
    decreases |a|
  {
    if |a| > 0 {
      assert (a + b)[1..] == a[1..] + b;
      Utf16LengthConcat(a[1..], b);
    } else {
      assert a + b == b;
    }
  }
}

=== FILE: serializer.dfy ===
/** `generateSvgFromComponents`: the markup of a whole diagram, one element
    per component in list order inside an `<svg>` root sized by the viewBox.
    Number-to-text conversion is the parameter `fmt`. */
module SvgSerializer {
  import opened Wrappers
  import opened Types
  import opened JsText

  const SvgNamespace: string := "http://www.w3.org/2000/svg"
  const CloseSvg: string := "</svg>"

  /** The root's opening tag: width, height and a viewBox starting at the origin. */
  function Header(vb: ViewBox, fmt: real -> string): string {
    "<svg width=\"" + fmt(vb.width) + "\" height=\"" + fmt(vb.height)
    + "\" viewBox=\"0 0 " + fmt(vb.width) + " " + fmt(vb.height)
    + "\" xmlns=\"" + SvgNamespace + "\">"
  }

  // ---------------------------------------------------------------------
  // The regular expression /<svg.*?>|<\/svg>/g applied with `replace`.
  // ---------------------------------------------------------------------

  /** `<svg` starts at index `i`. */
  predicate OpenAt(s: string, i: nat) {
    i + 4 <= |s| && s[i] == '<' && s[i + 1] == 's' && s[i + 2] == 'v' && s[i + 3] == 'g'
  }

  /** `</svg>` starts at index `i`. */
  predicate CloseAt(s: string, i: nat) {
    i + 6 <= |s| && s[i] == '<' && s[i + 1] == '/' && s[i + 2] == 's'
    && s[i + 3] == 'v' && s[i + 4] == 'g' && s[i + 5] == '>'
  }

  /** Where the lazy `.*?>` starting at `k` ends: the first `>` at or after
      `k`, provided no line terminator (which `.` does not match) comes first. */
  function LazyTagEnd(s: string, k: nat): (e: Option<nat>)
    requires k <= |s|
    ensures e.Some? ==> k <= e.value < |s| && s[e.value] == '>'
    ensures e.Some? ==> forall j :: k <= j < e.value ==> s[j] != '>' && !IsLineTerminator(s[j])
    ensures e.None? ==> forall j :: k <= j < |s| && s[j] == '>' ==>
                          exists t :: k <= t < j && IsLineTerminator(s[t])
    decreases |s| - k
  {
    if k == |s| then None
    else if s[k] == '>' then Some(k)
    else if IsLineTerminator(s[k]) then None
    else LazyTagEnd(s, k + 1)
  }

  /** The text of `s` from `i` on, with every match removed in one
      left-to-right pass; text around a removed match is not searched again. */
  function StripFrom(s: string, i: nat): string
    requires i <= |s|
    decreases |s| - i
  {
    if i == |s| then ""
    else if OpenAt(s, i) && LazyTagEnd(s, i + 4).Some? then StripFrom(s, LazyTagEnd(s, i + 4).value + 1)
    else if CloseAt(s, i) then StripFrom(s, i + 6)
    else [s[i]] + StripFrom(s, i + 1)
  }

  /** `s.replace(/<svg.*?>|<\/svg>/g, '')`: never longer than the markup,
      and markup in which no tag starts comes back unchanged. */
  function StripSvgTags(s: string): (r: string)
    ensures |r| <= |s|
    ensures TagFree(s, 0, |s|) ==> r == s
  {
    StripFromShrinks(s, 0);
    if TagFree(s, 0, |s|) then StripFromCopies(s, 0, |s|); StripFrom(s, 0)
    else StripFrom(s, 0)
  }

  /** No `<svg` and no `</svg>` starts in `s[lo..hi]`. */
  predicate TagFree(s: string, lo: nat, hi: nat) {
    forall i :: lo <= i < hi ==> !OpenAt(s, i) && !CloseAt(s, i)
  }

  /** Stripping never lengthens its input. */
  lemma {:induction false} StripFromShrinks(s: string, i: nat)
    requires i <= |s|
    ensures |StripFrom(s, i)| <= |s| - i
    decreases |s| - i
  {
    if i < |s| {
      if OpenAt(s, i) && LazyTagEnd(s, i + 4).Some? {
        StripFromShrinks(s, LazyTagEnd(s, i + 4).value + 1);
      } else if CloseAt(s, i) {
        StripFromShrinks(s, i + 6);
      } else {
        StripFromShrinks(s, i + 1);
      }
    }
  }

  /** A character where no tag starts is copied through. */
  lemma StripKeepsCharacter(s: string, i: nat)
    requires i < |s| && !OpenAt(s, i) && !CloseAt(s, i)
    ensures StripFrom(s, i) == [s[i]] + StripFrom(s, i + 1)
  {
  }

  /** A stretch where no tag starts is copied through unchanged. */
  lemma {:induction false} StripFromCopies(s: string, i: nat, n: nat)
    requires i <= n <= |s| && TagFree(s, i, n)
    ensures StripFrom(s, i) == s[i..n] + StripFrom(s, n)
    decreases n - i
  {
    if i == n {
      assert s[i..n] == [];
    } else {
      StripKeepsCharacter(s, i);
      var rest := StripFrom(s, n);
      StripFromCopies(s, i + 1, n);
      calc {
        StripFrom(s, i);
        [s[i]] + StripFrom(s, i + 1);
        [s[i]] + (s[i + 1..n] + rest);
        ([s[i]] + s[i + 1..n]) + rest;
        { assert s[i..n] == [s[i]] + s[i + 1..n]; }
        s[i..n] + rest;
      }
    }
  }

  /** Placing `</svg>` after tag-free text starts no tag inside the text. */
  lemma CloseAfterTagFree(body: string)
    requires TagFree(body, 0, |body|)
    ensures TagFree(body + CloseSvg, 0, |body|)
  {
    var s := body + CloseSvg;
    forall i | 0 <= i < |body|
      ensures !OpenAt(s, i) && !CloseAt(s, i)
    {
      assert s[|body|] == '<';
      if i + 4 <= |body| {
        assert !OpenAt(body, i);
      }
      if i + 6 <= |body| {
        assert !CloseAt(body, i);
      }
    }
  }

  /** The lazy match ends at the first `>` when no line terminator precedes it. */
  lemma {:induction false} LazyTagEndFinds(s: string, k: nat, e: nat)
    requires k <= e < |s| && s[e] == '>'
    requires forall j :: k <= j < e ==> s[j] != '>' && !IsLineTerminator(s[j])
    ensures LazyTagEnd(s, k) == Some(e)
    decreases e - k
  {
    if k < e {
      LazyTagEndFinds(s, k + 1, e);
    }
  }

  /** A one-line opening `<svg …>` tag at the start is removed whole. */
  lemma OpenTagRemoved(s: string, attrs: string)
    requires |s| >= |attrs| + 5 && s[..|attrs| + 5] == "<svg" + attrs + ">"
    requires forall k :: 0 <= k < |attrs| ==> attrs[k] != '>' && !IsLineTerminator(attrs[k])
    ensures StripFrom(s, 0) == StripFrom(s, |attrs| + 5)
  {
    var open := "<svg" + attrs + ">";
    var e := |attrs| + 4;
    assert forall j :: 0 <= j < |open| ==> s[j] == open[j];
    assert s[0] == '<' && s[1] == 's' && s[2] == 'v' && s[3] == 'g' && s[e] == '>';
    forall j | 4 <= j < e
      ensures s[j] != '>' && !IsLineTerminator(s[j])
    {
      assert s[j] == open[j] == attrs[j - 4];
    }
    LazyTagEndFinds(s, 4, e);
  }

  /** Putting text in front shifts where tags start, and nothing more. */
  lemma TagFreeShift(pre: string, t: string, m: nat)
    requires m <= |t| && TagFree(t, 0, m)
    ensures TagFree(pre + t, |pre|, |pre| + m)
  {
    var s := pre + t;
    forall i | |pre| <= i < |pre| + m
      ensures !OpenAt(s, i) && !CloseAt(s, i)
    {
      assert forall j :: 0 <= j < |t| ==> s[|pre| + j] == t[j];
      assert !OpenAt(t, i - |pre|) && !CloseAt(t, i - |pre|);
    }
  }

  /** The embedded root is unwrapped: an opening `<svg …>` tag on one line,
      a tag-free body and the closing `</svg>` leave just the body. */
  lemma StripUnwrapsRoot(attrs: string, body: string)
    requires forall k :: 0 <= k < |attrs| ==> attrs[k] != '>' && !IsLineTerminator(attrs[k])
    requires TagFree(body, 0, |body|)
    ensures StripSvgTags("<svg" + attrs + ">" + body + CloseSvg) == body
  {
    var open := "<svg" + attrs + ">";
    var t := body + CloseSvg;
    var s := open + t;
    assert s == open + body + CloseSvg;
    assert s[..|open|] == open;
    OpenTagRemoved(s, attrs);
    CloseAfterTagFree(body);
    var n := |open| + |body|;
    TagFreeShift(open, t, |body|);
    StripFromCopies(s, |open|, n);
    assert s[|open|..n] == body;
    StripClosingTag(s, n);
  }

  /** A closing tag ending the text is removed. */
  lemma StripClosingTag(s: string, n: nat)
    requires n + 6 == |s| && s[n..] == CloseSvg
    ensures StripFrom(s, n) == ""
  {
    assert CloseAt(s, n) && !OpenAt(s, n);
  }

  /** The opening tag is not matched when a line break precedes its `>`:
      `.` stops at the line terminator, so the tag stays in the output. */
  lemma MultiLineOpenTagKept()
    ensures StripSvgTags("<svg\n>") == "<svg\n>"
  {
    var s := "<svg\n>";
    assert LazyTagEnd(s, 4).None?;
    assert StripFrom(s, 1) == "svg\n>" by {
      StripFromCopies(s, 1, |s|);
    }
  }

  /** One pass only: removing an inner `</svg>` can bring a new one together,
      and that one is kept. */
  lemma StripIsSinglePass()
    ensures StripSvgTags("</s</svg>vg>") == CloseSvg
  {
    var s := "</s</svg>vg>";
    assert !OpenAt(s, 0) && !CloseAt(s, 0);
    assert !OpenAt(s, 1) && !CloseAt(s, 1);
    assert !OpenAt(s, 2) && !CloseAt(s, 2);
    assert CloseAt(s, 3);
    assert StripFrom(s, 9) == "vg>" by {
      StripFromCopies(s, 9, |s|);
    }
  }

  // ---------------------------------------------------------------------
  // Elements
  // ---------------------------------------------------------------------

  /** Rotation about the centre of the component's bounding box. */
  function CentredRotation(c: Component, fmt: real -> string): string {
    var cx := c.x + c.width / 2.0;
    var cy := c.y + c.height / 2.0;
    "translate(" + fmt(cx) + ", " + fmt(cy) + ") rotate(" + fmt(c.rotation)
    + ") translate(-" + fmt(cx) + ", -" + fmt(cy) + ")"
  }

  /** A GROUP without embedded markup (absent or empty) produces no element. */
  predicate Silent(c: Component) {
    c.kind == Group && !Truthy(c.svgString)
  }

  /** The start of the element each tag produces. */
  function ElementStart(t: ComponentType): string {
    match t
    case Rect => "<rect "
    case Ellipse => "<ellipse "
    case Text => "<text "
    case Path => "<path "
    case Group => "<g "
  }

  function StyleAttrs(c: Component, fmt: real -> string): string {
    "fill=\"" + c.fill + "\" stroke=\"" + c.stroke + "\" stroke-width=\"" + fmt(c.strokeWidth) + "\""
  }

  /** The placement of a group: translate to its corner, rotate, then scale
      by its scale factors (an absent or zero factor counts as 1). */
  function GroupTransformAttr(c: Component, fmt: real -> string): string {
    "transform=\"translate(" + fmt(c.x) + ", " + fmt(c.y) + ") rotate(" + fmt(c.rotation)
    + ") scale(" + fmt(OrOne(c.scaleX)) + " " + fmt(OrOne(c.scaleY)) + ")\">"
  }

  /** What follows the element's start: attributes, and content or close. */
  function ElementTail(c: Component, fmt: real -> string): string
    requires !Silent(c)
  {
    if c.kind == Group then
      GroupTransformAttr(c, fmt) + StripSvgTags(c.svgString.value) + "</g>"
    else
      var transform := CentredRotation(c, fmt);
      match c.kind
      case Rect =>
        "x=\"" + fmt(c.x) + "\" y=\"" + fmt(c.y) + "\" width=\"" + fmt(c.width)
        + "\" height=\"" + fmt(c.height) + "\" " + StyleAttrs(c, fmt)
        + " transform=\"" + transform + "\" />"
      case Ellipse =>
        "cx=\"" + fmt(c.x + c.width / 2.0) + "\" cy=\"" + fmt(c.y + c.height / 2.0)
        + "\" rx=\"" + fmt(c.width / 2.0) + "\" ry=\"" + fmt(c.height / 2.0) + "\" "
        + StyleAttrs(c, fmt) + " transform=\"" + transform + "\" />"
      case Text =>
        "x=\"" + fmt(c.x) + "\" y=\"" + fmt(c.y + c.height) + "\" font-size=\"" + fmt(c.height)
        + "\" fill=\"" + c.fill + "\" transform=\"" + transform + "\">" + OrEmpty(c.text) + "</text>"
      case Path =>
        "d=\"" + OrEmpty(c.path) + "\" " + StyleAttrs(c, fmt)
        + " transform=\"translate(" + fmt(c.x) + ", " + fmt(c.y) + ") rotate(" + fmt(c.rotation) + ")\" />"
  }

  /** The markup of one component: nothing for a silent group; otherwise one
      element whose start names the component's tag. A group's embedded
      markup keeps everything but its own `<svg>` root tags. */
  function Element(c: Component, fmt: real -> string): (e: string)
    ensures e == "" <==> Silent(c)
    ensures !Silent(c) ==> e == ElementStart(c.kind) + ElementTail(c, fmt)
  {
    if Silent(c) then "" else ElementStart(c.kind) + ElementTail(c, fmt)
  }

  /** A group holding a whole embedded document is emitted as a `<g>` around
      that document's content: the embedded root tags do not survive. */
  lemma GroupElementUnwrapsRoot(c: Component, attrs: string, inner: string, fmt: real -> string)
    requires c.kind == Group
    requires c.svgString == Some("<svg" + attrs + ">" + inner + CloseSvg)
    requires forall k :: 0 <= k < |attrs| ==> attrs[k] != '>' && !IsLineTerminator(attrs[k])
    requires TagFree(inner, 0, |inner|)
    ensures Element(c, fmt) == "<g " + GroupTransformAttr(c, fmt) + inner + "</g>"
  {
    StripUnwrapsRoot(attrs, inner);
  }

  /** The strings `f` gives for the items of `xs`, concatenated in order. */
  function Joined<T>(xs: seq<T>, f: T -> string): string
    decreases |xs|
  {
    if |xs| == 0 then "" else f(xs[0]) + Joined(xs[1..], f)
  }

  /** Joining a concatenation joins the parts: order is kept. */
  lemma {:induction false} JoinedConcat<T>(a: seq<T>, b: seq<T>, f: T -> string)
    ensures Joined(a + b, f) == Joined(a, f) + Joined(b, f)
    decreases |a|
  {
    if |a| > 0 {
      assert (a + b)[1..] == a[1..] + b;
      JoinedConcat(a[1..], b, f);
      assert Joined(a + b, f) == f(a[0]) + Joined(a[1..] + b, f);
    } else {
      assert a + b == b;
    }
  }

  /** The string of the `i`-th item sits between those of the items before
      and after it. */
  lemma {:induction false} JoinedAt<T>(xs: seq<T>, i: nat, f: T -> string)
    requires i < |xs|
    ensures Joined(xs, f) == Joined(xs[..i], f) + f(xs[i]) + Joined(xs[i + 1..], f)
    decreases i
  {
    var tail := Joined(xs[1..], f);
    assert Joined(xs, f) == f(xs[0]) + tail;
    if i == 0 {
      assert xs[..0] == [];
      assert xs[1..] == xs[i + 1..];
    } else {
      var ys := xs[1..];
      JoinedAt(ys, i - 1, f);
      assert ys[..i - 1] == xs[1..i] && ys[i - 1] == xs[i] && ys[i..] == xs[i + 1..];
      assert xs[..i][0] == xs[0] && xs[..i][1..] == xs[1..i];
      var before := Joined(xs[1..i], f);
      assert Joined(xs[..i], f) == f(xs[0]) + before;
      assert tail == before + f(xs[i]) + Joined(xs[i + 1..], f);
    }
  }

  /** The joined text is empty exactly when every item gives "". */
  lemma {:induction false} JoinedEmptyIff<T>(xs: seq<T>, f: T -> string)
    ensures Joined(xs, f) == "" <==> forall k :: 0 <= k < |xs| ==> f(xs[k]) == ""
    decreases |xs|
  {
    if |xs| > 0 {
      JoinedEmptyIff(xs[1..], f);
      assert forall k :: 1 <= k < |xs| ==> xs[k] == xs[1..][k - 1];
    }
  }

  /** The elements of a component list, concatenated in list order. */
  function Body(cs: seq<Component>, fmt: real -> string): string {
    Joined(cs, ElementOf(fmt))
  }

  function ElementOf(fmt: real -> string): Component -> string {
    c => Element(c, fmt)
  }

  /** The markup of a whole diagram: the root's opening tag, then the
      elements, then the closing tag. */
  function Serialize(cs: seq<Component>, vb: ViewBox, fmt: real -> string): (doc: string)
    ensures |doc| == |Header(vb, fmt)| + |Body(cs, fmt)| + 6
    ensures doc[..|Header(vb, fmt)|] == Header(vb, fmt)
    ensures doc[|doc| - 6..] == CloseSvg
    ensures doc[|Header(vb, fmt)|..|doc| - 6] == Body(cs, fmt)
  {
    Wrapped(Header(vb, fmt), Body(cs, fmt), CloseSvg);
    Header(vb, fmt) + Body(cs, fmt) + CloseSvg
  }

  /** Serializing a concatenation concatenates the serialized parts: the
      output keeps the list order. */
  lemma BodyConcat(a: seq<Component>, b: seq<Component>, fmt: real -> string)
    ensures Body(a + b, fmt) == Body(a, fmt) + Body(b, fmt)
  {
    JoinedConcat(a, b, ElementOf(fmt));
  }

  /** The element of the `i`-th component sits after those of all earlier
      components and before those of all later ones. */
  lemma ElementsInListOrder(cs: seq<Component>, i: nat, fmt: real -> string)
    requires i < |cs|
    ensures Body(cs, fmt) == Body(cs[..i], fmt) + Element(cs[i], fmt) + Body(cs[i + 1..], fmt)
  {
    JoinedAt(cs, i, ElementOf(fmt));
  }

  /** The body is empty exactly when every component is a silent group:
      every other component contributes an element. */
  lemma BodyEmptyIffAllSilent(cs: seq<Component>, fmt: real -> string)
    ensures Body(cs, fmt) == "" <==> forall k :: 0 <= k < |cs| ==> Silent(cs[k])
  {
    JoinedEmptyIff(cs, ElementOf(fmt));
  }

  /** Text wrapped between an opening and a closing tag starts with the one
      and ends with the other. */
  lemma Wrapped(hd: string, body: string, close: string)
    ensures var doc := hd + body + close;
      && |doc| == |hd| + |body| + |close|
      && doc[..|hd|] == hd
      && doc[|doc| - |close|..] == close
  {
    var doc := hd + body + close;
    assert doc == hd + (body + close);
  }

  /** The document is always the root's opening tag, the elements and the
      closing tag; an empty list gives a root with no children. */
  lemma SerializeShape(cs: seq<Component>, vb: ViewBox, fmt: real -> string)
    ensures var doc, hd := Serialize(cs, vb, fmt), Header(vb, fmt);
      && |doc| >= |hd| + 6
      && doc[..|hd|] == hd
      && doc[|doc| - 6..] == CloseSvg
      && (|cs| == 0 ==> doc == hd + CloseSvg)
  {
    Wrapped(Header(vb, fmt), Body(cs, fmt), CloseSvg);
    if |cs| == 0 {
      assert Body(cs, fmt) == "";
    }
  }

  /** The `forEach` loop of the serializer: an accumulator to which the
      string of each item is appended in turn. */
  method AppendEach<T>(xs: seq<T>, f: T -> string) returns (acc: string)
    ensures acc == Joined(xs, f)
  {
    acc := "";
    var i := 0;
    while i < |xs|
      invariant 0 <= i <= |xs|
      invariant acc == Joined(xs[..i], f)
    {
      assert xs[..i + 1] == xs[..i] + [xs[i]];
      JoinedConcat(xs[..i], [xs[i]], f);
      assert Joined([xs[i]], f) == f(xs[i]) + Joined([], f);
      acc := acc + f(xs[i]);
      i := i + 1;
    }
    assert xs[..i] == xs;
  }

  /** The serializer as the program runs it: the loop builds the elements,
      which are then wrapped in the root tags. */
  method GenerateSvgFromComponents(cs: seq<Component>, vb: ViewBox, fmt: real -> string)
    returns (svg: string)
    ensures svg == Serialize(cs, vb, fmt)
  {
    var svgElements := AppendEach(cs, ElementOf(fmt));
    svg := Header(vb, fmt) + svgElements + CloseSvg;
  }
}

=== FILE: text_tool.dfy ===
/** Text placement in the editor: the typed text is trimmed, classified as
    a formula or as plain text, and turned into a GROUP component (holding
    the formula's rendered markup) or a TEXT component. The rendering of a
    formula is an outside service; its outcome is a parameter here. */
module TextTool {
  import opened Wrappers
  import opened Types
  import opened JsText
  import opened History
  import opened Drawing
  import opened CanvasSync

  /** The formula test: a backslash, `^` or `_` anywhere, or a text that
      starts and ends with `$` (a lone `$` does both), and nothing else:
      `$5` and `a$b` are plain text. */
  function IsLatex(input: string): (b: bool)
    ensures (exists k :: 0 <= k < |input| && input[k] in {'\\', '^', '_'}) ==> b
    ensures |input| > 0 && input[0] == '$' && input[|input| - 1] == '$' ==> b
    ensures (forall k :: 0 <= k < |input| ==> input[k] !in {'\\', '^', '_', '$'}) ==> !b
    ensures b ==>
      || (exists k :: 0 <= k < |input| && input[k] in {'\\', '^', '_'})
      || (|input| > 0 && input[0] == '$' && input[|input| - 1] == '$')
  {
    || Contains(input, '\\') || Contains(input, '^') || Contains(input, '_')
    || (StartsWith(input, '$') && EndsWith(input, '$'))
  }

  /** A rendered formula: its flattened markup and the width and height read
      from its viewBox. */
  datatype Formula = Formula(svgString: string, width: real, height: real)

  /** Plain text at the clicked point: 12 units wide per UTF-16 code unit,
      24 high, drawn in the toolbar's stroke colour without an outline. */
  function PlainTextComponent(input: string, at: Point, props: ToolProps, stamp: string): (c: Component)
    ensures c.kind == Text && c.text == Some(input) && c.id == "text-" + stamp
    ensures c.x == at.x && c.y == at.y
    ensures c.width == 12.0 * Utf16Length(input) as real && c.height == 24.0
    ensures c.fill == props.stroke && c.stroke == "transparent" && c.strokeWidth == 0.0
    ensures c.rotation == 0.0 && c.scaleX == Some(1.0) && c.scaleY == Some(1.0)
  {
    Component("text-" + stamp, Text, at.x, at.y, (Utf16Length(input) * 12) as real, 24.0,
      0.0, props.stroke, "transparent", 0.0, Some(input), None, None, Some(1.0), Some(1.0))
  }

  /** A rendered formula at the clicked point, sized by the formula's viewBox. */
  function FormulaComponent(f: Formula, at: Point, props: ToolProps, stamp: string): (c: Component)
    ensures c.kind == Group && c.svgString == Some(f.svgString) && c.id == "latex-" + stamp
    ensures c.x == at.x && c.y == at.y && c.width == f.width && c.height == f.height
    ensures c.fill == props.stroke && c.stroke == "transparent" && c.strokeWidth == 0.0
    ensures c.rotation == 0.0 && c.scaleX == Some(1.0) && c.scaleY == Some(1.0)
  {
    Component("latex-" + stamp, Group, at.x, at.y, f.width, f.height,
      0.0, props.stroke, "transparent", 0.0, None, None, Some(f.svgString), Some(1.0), Some(1.0))
  }

  /** `handleAddTextFromModal`: nothing is added for blank text or without a
      placement point, nor when a formula fails to render; a formula becomes
      a GROUP, anything else a TEXT holding the trimmed text. */
  function PlaceText(raw: string, coords: Option<Point>, props: ToolProps, stamp: string,
                     rendered: Result<Formula, string>): (r: Option<Component>)
    ensures var input := Trim(raw);
      && (r.None? <==> input == "" || coords.None? || (IsLatex(input) && rendered.Failure?))
      && (r.Some? && IsLatex(input) ==> r.value == FormulaComponent(rendered.value, coords.value, props, stamp))
      && (r.Some? && !IsLatex(input) ==> r.value == PlainTextComponent(input, coords.value, props, stamp))
  {
    var input := Trim(raw);
    if input == "" || coords.None? then None
    else if IsLatex(input) then
      match rendered
      case Success(f) => Some(FormulaComponent(f, coords.value, props, stamp))
      case Failure(_) => None
    else Some(PlainTextComponent(input, coords.value, props, stamp))
  }

  /** The placement goes through the history: when a component results it
      is appended after the present's components, the old present is
      recorded and the redo future is dropped; otherwise the history is
      untouched. */
  function AddText(h: History, raw: string, coords: Option<Point>, props: ToolProps, stamp: string,
                   rendered: Result<Formula, string>, ref: nat): (r: History)
    requires h.present.Some? ==> h.present.value.ref != ref
    ensures PlaceText(raw, coords, props, stamp, rendered).None? ==> r == h
    ensures PlaceText(raw, coords, props, stamp, rendered).Some? ==>
      && CanUndo(r) == (h.present.Some? || CanUndo(h))
      && r.present.Some? && |r.present.value.components| > 0
      && r.present.value.components[|r.present.value.components| - 1]
         == PlaceText(raw, coords, props, stamp, rendered).value
    ensures PlaceText(raw, coords, props, stamp, rendered).Some? ==>
      && r.future == []
      && r.past == h.past + h.present.ToSeq()
      && r.present.value.components
         == (if h.present.Some? then h.present.value.components else [])
            + [PlaceText(raw, coords, props, stamp, rendered).value]
  {
    match PlaceText(raw, coords, props, stamp, rendered)
    case None => h
    case Some(c) => AddComponent(h, c, ref)
  }

  /** Surrounding whitespace does not matter: text that trims to the same
      string is placed identically. */
  lemma PlacementIgnoresSurroundingWhitespace(raw: string, coords: Option<Point>, props: ToolProps,
                                              stamp: string, rendered: Result<Formula, string>)
    ensures PlaceText(raw, coords, props, stamp, rendered) == PlaceText(Trim(raw), coords, props, stamp, rendered)
  {
    TrimIdempotent(raw);
  }

  /** `x^2` is a formula; `Force` is plain text and becomes a TEXT holding
      "Force", 60 wide; a lone `$` counts as a formula. */
  lemma ClassifierExamples(at: Point, props: ToolProps, stamp: string, rendered: Result<Formula, string>)
    ensures IsLatex("x^2")
    ensures !IsLatex("Force")
    ensures IsLatex("$")
    ensures var r := PlaceText("Force", Some(at), props, stamp, rendered);
      r.Some? && r.value.kind == Text && r.value.text == Some("Force") && r.value.width == 60.0
  {
    assert "x^2"[1] == '^';
    assert Trim("Force") == "Force" by {
      assert LeadingWhitespace("Force") == 0;
      assert TrailingWhitespaceStart("Force", 0) == 5;
    }
    assert Utf16Length("Force") == 5;
  }

  /** A `$` makes text a formula only when it both starts and ends it. */
  lemma DollarAloneIsNotEnough()
    ensures !IsLatex("$5") && !IsLatex("a$b")
  {
    assert "$5"[1] == '5';
    assert "a$b"[0] == 'a';
  }
}

=== FILE: types.dfy ===
/** The data model of the diagram converter: component tags, the analysis
    status, one diagram component, and the response of the analysis service.
    Numeric fields are exact reals; the program's double-precision rounding
    is not modelled. */
module Types {
  import opened Wrappers

  /** The lifecycle of one analysis request; exactly four states. */
  datatype AnalysisStatus = Idle | Analyzing | Succeeded | Errored

  /** The closed set of component tags. */
  datatype ComponentType = Rect | Path | Text | Group | Ellipse

  /** One visual primitive. `text`, `path`, `svgString`, `scaleX` and
      `scaleY` are optional; every other field is required. The nested
      `children` field is declared by the program but never written or read
      by any of its code paths, so it has no counterpart here. */
  datatype Component = Component(
    id: string,
    kind: ComponentType,
    x: real,
    y: real,
    width: real,
    height: real,
    rotation: real,
    fill: string,
    stroke: string,
    strokeWidth: real,
    text: Option<string>,
    path: Option<string>,
    svgString: Option<string>,
    scaleX: Option<real>,
    scaleY: Option<real>)

  /** The coordinate space of a diagram. */
  datatype ViewBox = ViewBox(width: real, height: real)

  /** What the analysis service returns: the components and their viewBox. */
  datatype AnalysisResponse = AnalysisResponse(components: seq<Component>, viewBox: ViewBox)

  /** JavaScript truthiness of an optional string: absent and "" are falsy. */
  predicate Truthy(s: Option<string>) {
    s.Some? && |s.value| > 0
  }

  /** `s || ''`: the string itself when truthy, otherwise the empty string. */
  function OrEmpty(s: Option<string>): (r: string)
    ensures Truthy(s) ==> r == s.value
    ensures !Truthy(s) ==> r == ""
  {
    if s.Some? then s.value else ""
  }

  /** `n || 1`: the number itself unless it is absent or zero (both falsy). */
  function OrOne(n: Option<real>): (r: real)
    ensures r != 0.0
    ensures n.Some? && n.value != 0.0 ==> r == n.value
    ensures n.None? || n.value == 0.0 ==> r == 1.0
  {
    if n.Some? && n.value != 0.0 then n.value else 1.0
  }
}

=== FILE: wrappers.dfy ===
/** Option and Result, the two failure-carrying shapes the model needs:
    `Option` stands for a JavaScript value that may be `null`/`undefined`,
    `Result` for an external call that either yields a value or fails. */
module Wrappers {

  datatype Option<+T> = None | Some(value: T) {

    /** The value inside `Some`, or `default` for `None` (JavaScript `x ?? d`). */
    function GetOr(default: T): T {
      match this
      case Some(v) => v
      case None => default
    }

    /** A zero- or one-element sequence holding the value, if any. */
    function ToSeq(): (s: seq<T>)
      ensures |s| <= 1
      ensures Some? <==> |s| == 1
      ensures Some? ==> s[0] == value
    {
      match this
      case Some(v) => [v]
      case None => []
    }
  }

  datatype Result<+R, +E> = Success(value: R) | Failure(error: E)
}
